=== FILE: README.md ===
# GmailVoiceAgent command interpreter, modelled in Dafny

GmailVoiceAgent is a voice and text assistant for a Gmail mailbox. A browser
client sends each spoken or typed utterance over a WebSocket. The server
(`handle_command` in `app.py`) normalises the utterance and handles it in one
of three ways:

- it answers a multi-turn "send an email" dialogue that is already open for
  that client session;
- it cancels that dialogue;
- it hands the utterance to the language processor (`process_command` in
  `app/nlp_processor.py`).

The language processor does three things:

- it picks an intent (READ_EMAIL, SEARCH_EMAIL, SEND_EMAIL or UNKNOWN) from a
  token-rule matcher, falling back to TF-IDF similarity against fourteen
  labelled examples;
- it pulls a sender, a subject and a body out of the text with regular
  expressions;
- it builds a Gmail search query from folder words, filter words, the sender
  and the subject.

The handler then does one of the following:

- lists mail, after clamping any count the user asked for;
- opens a send dialogue at the first missing slot;
- sends the message;
- explains that it did not understand.

The model covers that core:

| module | file | models |
|---|---|---|
| `Wrappers` | wrappers.dfy | `Option` |
| `Text` | text.dfy | Python `str.strip`, `str.lower` (ASCII), `" ".join`, `in` on strings, case-insensitive keyword test |
| `Extract` | extract.dfy | `extract_sender`, `extract_subject`, `extract_content`, each as a leftmost, backtracking, greedy regular-expression search |
| `Filters` | filters.dfy | `extract_labels_and_filters` |
| `Intents` | intents.dfy | the token-pattern rule table and `classify_intent` |
| `Command` | command.dfy | `process_command` and the query it builds |
| `EmailAddress` | email_address.dfy | the recipient regular expression of the dialogue's first step |
| `Count` | count.dfy | the explicit result count and its clamp |
| `Dialogue` | dialogue.dfy | `handle_command` and the disconnect handler, over the table of open conversations |
| `DialogueProperties` | dialogue_properties.dfy | what one turn does: routing order, the steps of the dialogue, the table invariant, at most one send |
| `ExtractExample` | extract_example.dfy | the extractors on one concrete request |
| `Conversation` | conversation.dfy | a whole four-turn send conversation through the handler |

Three groups of inputs are parameters, not computation:

- The language components are an oracle `NlpOracle`. It holds:
  - the labels the spaCy matcher reports;
  - one similarity score per labelled example;
  - the date qualifiers that depend on the clock.
- The Gmail backend is an environment `Env`. It holds:
  - whether the client was built;
  - what a send would return;
  - what a listing would return.
- Emitted messages and backend calls are returned as an ordered list of
  `Event`s.

A regular-expression search is specified declaratively, in two parts:

- a predicate says which positions describe *a* way the pattern matches;
- an order says which of those Python's engine tries first: leftmost start,
  then earlier alternative, then greedy repetition.

Each search function is proved to return the match preferred to every other,
and `None` exactly when there is none.

## Model

| member | source | states |
|---|---|---|
| Text.Lower | app/nlp_processor.py:123 | `str.lower` on ASCII: same length, no upper-case letter left, every other character kept, whitespace exactly where it was |
| Text.Strip | app/nlp_processor.py:123 | the result has no whitespace at either end, and it is the input with only whitespace cut from its two ends |
| Text.StripIdempotent | app.py:91-101 | stripping twice is stripping once, so the dialogue's `command.strip()` of the already stripped command changes nothing |
| Text.StripEmpty | app.py:51-54 | a command strips to empty exactly when every character is whitespace |
| Text.JoinAppend | app/nlp_processor.py:118 | joining two non-empty lists with spaces is joining each and putting one space between |
| Text.JoinNoEdge | app/nlp_processor.py:141 | a space-join of non-empty parts without edge whitespace has no edge whitespace |
| Extract.SearchSender | app/nlp_processor.py:74 | the search returns the match of `from\s+([^\s]+)` that Python's engine tries first, or nothing exactly when there is no match |
| Extract.ExtractSender | app/nlp_processor.py:73-75 | an extracted sender is non-empty and has no whitespace |
| Extract.ExtractSenderSpec | app/nlp_processor.py:73-75 | no sender exactly when the pattern matches nowhere; otherwise the sender is the group of the first match |
| Extract.AltAt | app/nlp_processor.py:78 | at a position, the alternatives `about`, `regarding`, `subject` are tried in that order and the first one followed by whitespace is taken |
| Extract.SearchTail | app/nlp_processor.py:77-83 | the search returns the first match of `keyword\s+(.*)`, or nothing exactly when there is no match |
| Extract.ExtractTail | app/nlp_processor.py:77-83 | an extracted subject or body has no edge whitespace and no line break |
| Extract.ExtractTailSpec | app/nlp_processor.py:77-83 | no value exactly when the pattern matches nowhere; otherwise the value is the stripped group of the first match |
| Extract.ExtractSubject | app/nlp_processor.py:77-79 | no subject exactly when no "about", "regarding" or "subject" is followed by whitespace; otherwise the stripped rest of the line after the first match |
| Extract.ExtractContent | app/nlp_processor.py:81-83 | no body exactly when no "saying" is followed by whitespace; otherwise the stripped rest of the line after the first match |
| Filters.FolderQualifier | app/nlp_processor.py:92-95 | "sent", "draft" and "spam" become `in:` qualifiers, the other folders `is:` qualifiers |
| Filters.FolderQualifierInjective | app/nlp_processor.py:89-95 | two folders give the same qualifier exactly when they are the same folder |
| Filters.LabelsExactlyPresent | app/nlp_processor.py:89-95 | a folder's qualifier is among the labels exactly when the folder word occurs in the text |
| Filters.LabelsInVocabularyOrder | app/nlp_processor.py:89-95 | the labels follow the order of the folder list: labels of earlier folders come first |
| Filters.LabelsDistinct | app/nlp_processor.py:89-95 | no label appears twice |
| Filters.FilterQualifiers | app/nlp_processor.py:97-116 | `has:attachment` comes first exactly when "attachment" or "pdf" occurs; the date qualifiers follow in order |
| Filters.LabelsBeforeFilters | app/nlp_processor.py:118 | the joined string is the labels, then one space, then the filters; either side alone when the other is empty |
| Filters.LabelsAndFilters | app/nlp_processor.py:85-118 | the folder query has no whitespace at its ends when every date qualifier is one word |
| Intents.RuleHits | app/nlp_processor.py:22-37 | a label is hit exactly when one of its registered token rules matches; UNKNOWN never is |
| Intents.ArgMax | app/nlp_processor.py:69 | the chosen index holds the maximum score and no earlier index does (numpy's first maximum) |
| Intents.FirstMaxUnique | app/nlp_processor.py:69 | the first maximum is unique |
| Intents.Classify | app/nlp_processor.py:62-70 | a matcher hit wins; otherwise the label of the first best example when its score is above 0.3, and UNKNOWN exactly when no score is |
| Intents.RulesBeforeSimilarity | app/nlp_processor.py:64-66 | when any rule matches, the scores cannot change the intent, and it is one of the matching labels |
| Intents.SendVerbThenNoun | app/nlp_processor.py:31-32 | a send verb with a later mail noun, and no read or search rule matching, gives SEND_EMAIL |
| Command.IfPresent | app/nlp_processor.py:153-155 | a slot is kept only when it is present and non-empty (Python truthiness) |
| Command.ProcessCommand | app/nlp_processor.py:122-159 | the result kind is exactly the classified intent; READ and SEARCH carry the query of the normalised text; SEND carries the three extracted slots; UNKNOWN carries the message quoting the command |
| Command.Normalize | app/nlp_processor.py:123 | the text the processor works on has no upper-case letter and no edge whitespace, and is empty exactly when the command is all whitespace |
| Command.Query | app/nlp_processor.py:126-141 | the final strip of the query changes nothing: the query is the space-join of its parts |
| Command.QueryOfEmpty | app/nlp_processor.py:129-141 | the query is empty exactly when there is no folder query, no sender and no subject |
| Command.QueryOfSender | app/nlp_processor.py:129-136 | with a sender, `from:<sender>` starts right after the folder query and its space, or at position 0 |
| Command.QueryLayout | app/nlp_processor.py:126-141 | the folder query opens the query; `from:<sender>` comes right after it or at the start; `subject:<subject>` ends it |
| Command.SendFieldsNonEmpty | app/nlp_processor.py:149-157 | every slot of a send request is absent or non-empty, with no edge whitespace |
| EmailAddress.TldEnd | app.py:79 | the greedy top-level domain: the longest run of letters (or `\|`) after the dot that ends on a word boundary |
| EmailAddress.MatchAt | app.py:79 | a match the engine returns at a position is a valid match of the pattern starting there |
| EmailAddress.MatchAtComplete | app.py:79 | whenever the pattern can match from a position, the engine finds a match there, preferred to every other match from that position |
| EmailAddress.FindAddress | app.py:79 | the search returns the leftmost, most preferred address match, or nothing exactly when there is none |
| EmailAddress.Recipient | app.py:79-80 | the recipient is the first address in the command, or the whole command when there is none; it is non-empty for a non-empty command |
| Count.WholeDigitRun | app.py:125 | if the count pattern matches with part of a digit run, it also matches with the whole run |
| Count.FindCount | app.py:125 | the search finds the leftmost match with the greedy digit group, or nothing exactly when the pattern matches nowhere |
| Count.RequestedCount | app.py:125-129 | there is no requested count exactly when the pattern matches nowhere; otherwise it is the value of the digit group of the leftmost match, with the longest digit group there |
| Count.SevenRequested | app.py:125-129 | "find 7 emails about sales" asks for 7 |
| Count.Clamp | app.py:131-138 | the count sent to the backend is between 1 and 100: 0 becomes 5, above 100 becomes 100, others are kept |
| Count.ClampNotice | app.py:131-136 | a notice is emitted exactly when the count is changed: the zero-count text for 0, the limit text above 100 |
| Count.ExplicitCount | app.py:122-138 | the explicit count is absent exactly when nothing was requested, and otherwise is the clamped request |
| Dialogue.SendAndClose | app.py:218-224 | the message is sent once and the conversation closed, whatever the outcome; other sessions are unchanged |
| Dialogue.Continue | app.py:73-115 | a dialogue turn changes only its own session's entry |
| Dialogue.StartSend | app.py:199-226 | a fresh send request changes only its own session's entry |
| Dialogue.ListEvents | app.py:143-148 | a READ or SEARCH first lists with the explicit count, or with the backend's default of 50 (app/gmail.py line 31) |
| Dialogue.Route | app.py:143-230 | acting on a verdict changes only the session's own entry, only a send request touches the table, and a read or search starts with the listing call |
| Dialogue.Fresh | app.py:117-230 | a command with no open conversation changes only its own entry, and any count notice comes before everything else the turn emits |
| Dialogue.Clean | app.py:51 | the handler's command has no upper-case letter and no edge whitespace, and is empty exactly when the raw text is all whitespace |
| Dialogue.HandleCommand | app.py:49-230 | a turn changes only the entry of its own session |
| Dialogue.Disconnect | app.py:42-47 | a disconnect drops that session's conversation, if any, and nothing else |
| DialogueProperties.CleanIsStripped | app.py:51 | the handler's command is already stripped |
| DialogueProperties.EmptyCommandRejected | app.py:54-57 | an empty command is answered with the error text and changes nothing |
| DialogueProperties.CancelClosesConversation | app.py:66-71 | with the backend configured, "cancel" or "never mind" closes an open conversation before any dialogue step or classification |
| DialogueProperties.CancelWithoutConversation | app.py:66-71 | with no open conversation, a cancel word is classified like any other command |
| DialogueProperties.OpenConversationNotReclassified | app.py:73-115 | while a conversation is open, the turn is the dialogue step and is never classified or listed |
| DialogueProperties.RecipientTurn | app.py:78-89 | waiting for the recipient: the first address (or the whole turn) is recorded and the subject is asked for |
| DialogueProperties.SubjectTurn | app.py:91-98 | waiting for the subject: a non-empty answer is recorded and the body asked for; an empty one changes nothing |
| DialogueProperties.BodyTurn | app.py:100-114 | waiting for the body: a non-empty answer sends once and closes the conversation on success and failure; an empty one changes nothing |
| DialogueProperties.SubjectTurnAdvances | app.py:91-98 | through the handler the subject step always advances: its empty-answer branch is unreachable |
| DialogueProperties.BodyTurnSends | app.py:100-114 | through the handler the body step always sends: its empty-answer branch is unreachable |
| DialogueProperties.StartSendFirstMissing | app.py:199-226 | a fresh send request waits for the first missing slot (recipient, subject, body), or sends at once and leaves no conversation |
| DialogueProperties.ContinueSendsAtMostOnce | app.py:100-114 | a dialogue step makes at most one send call |
| DialogueProperties.RouteSendsAtMostOnce | app.py:199-226 | acting on a verdict makes at most one send call |
| DialogueProperties.ContinueKeepsValid | app.py:78-114 | a dialogue step keeps every open conversation well formed |
| DialogueProperties.RouteKeepsValid | app.py:199-216 | a fresh send request opens a well formed conversation |
| DialogueProperties.SendWithoutRecipientOpens | app.py:199-210 | with no conversation open and no count in the command, a send request that names no recipient opens a conversation holding the extracted subject and body, and asks for the recipient |
| DialogueProperties.AtMostOneSend | app.py:49-230 | one turn makes at most one send call |
| DialogueProperties.HandleCommandKeepsValid | app.py:73-115 | every open conversation stays a send dialogue whose slots before the awaited one are filled |
| DialogueProperties.SendsAreComplete | app.py:100-114 | every send call carries a non-empty recipient, subject and body |
| DialogueProperties.CountNoticeShape | app.py:125-138 | at most one notice, an informational reply, exactly when a requested count is changed |
| DialogueProperties.CountedListing | app.py:143-148 | the listing comes right after any notice, with the clamped count or the default |
| DialogueProperties.DisconnectIdempotent | app.py:46-47 | disconnecting twice is disconnecting once |
| ExtractExample.SubjectExample | app/nlp_processor.py:78-79 | in "send email about lunch saying hi" the subject is "lunch saying hi": the group runs to the end of the line |
| ExtractExample.ContentExample | app/nlp_processor.py:82-83 | the body of that request is "hi" |
| ExtractExample.SenderExample | app/nlp_processor.py:74-75 | that request has no sender |
| ExtractExample.LongSContent | app/nlp_processor.py:81-83 | "saying hi" written with a long s still gives the body "hi", because case-insensitive matching pairs long s with "s" |
| ExtractExample.TailFromMatch | app/nlp_processor.py:77-83 | a known match with no earlier keyword and exactly one space after the keyword gives the stripped rest of the line |
| Conversation.RecipientExample | app.py:79-80 | the recipient of "jane@example.com" is the whole address |
| Conversation.OpeningTurn | app.py:199-210 | the request above opens a dialogue holding its subject and body and asks for the recipient |
| Conversation.RequestVerdict | app/nlp_processor.py:149-157 | the request is a SEND with no recipient, subject "lunch saying hi" and body "hi" |
| Conversation.RecipientGiven | app.py:78-88 | the address answers the recipient step and the subject is asked for, although the draft already has one |
| Conversation.SubjectGiven | app.py:90-98 | "lunch" replaces the extracted subject and the body is asked for |
| Conversation.BodyGiven | app.py:100-114 | the body answer sends the drafted message once and closes the conversation |
| Conversation.WholeConversation | app.py:73-115 | request, address, "lunch", "see you at noon": the subject is asked for again, both the subject and the body are replaced by the later answers, exactly one send is made and no conversation is left open |

## Behaviour worth knowing

The model follows the code throughout, including these behaviours:

- The keyword patterns are case-insensitive in Python's Unicode sense. A long
  s matches "s" and a dotless i matches "i", and `str.lower` keeps both
  characters. So "ſaying hi" gives the body "hi"
  (`ExtractExample.LongSContent`).
- The sender (for READ and SEARCH) and the recipient of a SEND request are both
  taken only from the word after "from". "send an email to jane@example.com"
  therefore opens a dialogue that asks for the recipient.
- An empty query stays empty. The raw text is never used as a fallback query.
- The subject pattern captures to the end of the line. A request with both
  "about" and "saying" gets a subject that contains the body
  (`ExtractExample.SubjectExample`).
- After the recipient step, the dialogue always asks for the subject. It does
  this even when the opening request already supplied one, and it replaces
  that subject (`Conversation.WholeConversation`).
- A cancel word with no open conversation is classified like any other
  command (`DialogueProperties.CancelWithoutConversation`).
- The branches that re-prompt for an empty subject or body cannot be reached
  through the handler, because the handler's command is stripped and
  non-empty. The recipient re-prompt cannot be reached either
  (`EmailAddress.Recipient` is non-empty for a non-empty command).
- The `UNDERSTAND` branch of `handle_command` (app.py lines 170-196) is dead:
  `process_command` never returns that type.

## Left out

- spaCy tokenisation, part-of-speech tagging and the matcher run. Their outcome is the `matches` list of the oracle. `Intents.RuleHits` and `MatcherReports` state which lists are consistent with a token sequence.
- The TF-IDF vectoriser and cosine similarity: floating-point library code. The scores are an oracle input of the right length.
- The date qualifiers (yesterday, today, "from <month> <year>", last week). They depend on the clock and on `strptime`, so they are an oracle list of words. Only their position in the folder query is modelled.
- Command.ProcessCommand: always gives a result. In the source, a command containing a date such as "from january 0000" passes the `\d{4}` pattern. Then `strptime` raises `ValueError` (year 0 is out of range), and nothing catches it. `process_command` aborts, and that turn of `handle_command` emits nothing (app/nlp_processor.py lines 108-111, app.py line 117). `Dialogue.HandleCommand` and the lemmas about it therefore describe turns that the source abandons in that case.
- Intents.Classify: the similarity scores are exact reals from an oracle. How numpy computes and rounds them is not modelled. Given the scores, ties are resolved as `argmax` does, at the first maximum.
- Text.Lower: ASCII lower-casing only. Python's `str.lower` also folds non-ASCII letters. This affects every value or message that echoes the command: the extracted sender, subject and body; the unknown-command message `Command.NotUnderstoodMessage`; the dialogue's subject and body answers; and the recipient, including the whole-command fallback. For example, Python answers "Ärger" with "Could not understand: 'ärger'", and the model with "...'Ärger'". The keyword search is not affected (see below).
- EmailAddress.Recipient: the `\b` of the address pattern uses an ASCII `\w`. Python's `\w` is Unicode, so a non-ASCII letter next to an address can change where Python finds a word boundary.
- Keyword search: no gap. The keywords are from, about, regarding, subject and saying. Beyond ASCII case, the only characters that Python's case-insensitive search pairs with one of their letters, after `str.lower`, are long s and dotless i, and `Text.KeywordAt` models both. The one other candidate, upper-case dotted I, lower-cases to "i" plus a combining dot. That can never complete a keyword, because every "i" in a keyword is followed by another letter.
- Count.RequestedCount: the digit value is read from ASCII digits. Python's `\d` and `int` also accept other Unicode digits. The `ValueError` branch is therefore unreachable in the model.
- The text of the listing intro and of each snippet line (app.py lines 151-161) is formatting. It is modelled as the structured events `Intro(count, explicit)` and `Snippets(emails)`.
- The `UNDERSTAND` branch (app.py lines 170-196) is never reached, as above.
- Socket.IO transport, `emit` rooms, `print` logging, the Flask routes and error pages.
- The OAuth flow, MIME encoding and Gmail API calls of app/gmail.py. Sending and listing are `SendCall` and `ListCall` events, and their outcomes come from `Env`.
- Concurrency between sessions. The table of open conversations is passed in and returned, one turn at a time.

=== FILE: command.dfy ===
/**
  `process_command` of `app/nlp_processor.py`: lower-case and strip the
  command, classify it, build the search query from the folder/filter part,
  the sender and the subject, and shape the per-intent parameter record.
 */
module Command {
  import opened Wrappers
  import opened Text
  import opened Intents
  import Extract
  import Filters

  /** The structured request returned for one command. */
  datatype NlpResult =
    | ReadRequest(query: string)
    | SearchRequest(query: string)
    | SendRequest(to: Option<string>, subject: Option<string>, body: Option<string>)
    | NotUnderstood(message: string)

  /**
    What the external language components report for one command: the labels
    of the matcher's matches, one similarity score per labelled example, and
    the date qualifiers derived from the wall clock.
   */
  datatype NlpOracle = NlpOracle(matches: seq<Intent>, scores: seq<real>, dateQualifiers: seq<string>)

  /** Python truthiness of an optional string: present and non-empty. */
  predicate Present(o: Option<string>) {
    o.Some? && o.value != ""
  }

  /** `x if x else None`. */
  function IfPresent(o: Option<string>): (r: Option<string>)
    ensures r.Some? ==> r == o && r.value != ""
    ensures r.None? <==> !Present(o)
  {
    if Present(o) then o else None
  }

  /**
    The `base_query` list: the folder/filter part, the sender qualifier and
    the subject qualifier, each only when non-empty.
   */
  function QueryOf(folder: string, sender: Option<string>, subject: Option<string>): seq<string> {
    (if folder != "" then [folder] else [])
    + (if Present(sender) then ["from:" + sender.value] else [])
    + (if Present(subject) then ["subject:" + subject.value] else [])
  }

  function QueryParts(text: string, dates: seq<string>): seq<string> {
    QueryOf(Filters.LabelsAndFilters(text, dates), Extract.ExtractSender(text), Extract.ExtractSubject(text))
  }

  /**
    `full_query`. When every date qualifier is one word, its final `strip`
    never removes anything: the query is the space-join of its parts.
   */
  function Query(text: string, dates: seq<string>): (r: string)
    ensures (forall k :: 0 <= k < |dates| ==> Filters.IsWord(dates[k])) ==> r == Join(QueryParts(text, dates))
  {
    var parts := QueryParts(text, dates);
    if forall k :: 0 <= k < |dates| ==> Filters.IsWord(dates[k]) then
      var folder := Filters.LabelsAndFilters(text, dates);
      var sender := Extract.ExtractSender(text);
      var subject := Extract.ExtractSubject(text);
      QueryInputsClean(text, dates);
      QueryOfClean(folder, sender, subject);
      JoinNoEdge(parts);
      StripNoEdge(Join(parts));
      Strip(Join(parts))
    else
      Strip(Join(parts))
  }

  /**
    `command.lower().strip()`, the text the classifier and the extractors
    see: no upper-case letter, no whitespace at the ends, and empty exactly
    when the command is all whitespace.
   */
  function Normalize(command: string): (r: string)
    ensures NoEdgeSpace(r)
    ensures forall i :: 0 <= i < |r| ==> !('A' <= r[i] <= 'Z')
    ensures r == "" <==> AllIn(command, 0, |command|, IsSpace)
  {
    var l := Lower(command);
    StripEmpty(l);
    StripChars(l, c => !('A' <= c <= 'Z'));
    Strip(l)
  }

  const NotUnderstoodText := "Could not understand: '"

  function NotUnderstoodMessage(command: string): string {
    NotUnderstoodText + command + "'"
  }

  /** `process_command`. */
  function ProcessCommand(command: string, oracle: NlpOracle): (r: NlpResult)
    requires |oracle.scores| == |ExampleLabels|
    ensures r.ReadRequest? <==> Classify(oracle.matches, oracle.scores) == ReadEmail
    ensures r.SearchRequest? <==> Classify(oracle.matches, oracle.scores) == SearchEmail
    ensures r.SendRequest? <==> Classify(oracle.matches, oracle.scores) == SendEmail
    ensures r.NotUnderstood? ==> r.message == NotUnderstoodMessage(command)
    ensures r.ReadRequest? || r.SearchRequest? ==> r.query == Query(Normalize(command), oracle.dateQualifiers)
    ensures r.SendRequest? ==>
      && r.to == IfPresent(Extract.ExtractSender(Normalize(command)))
      && r.subject == IfPresent(Extract.ExtractSubject(Normalize(command)))
      && r.body == IfPresent(Extract.ExtractContent(Normalize(command)))
  {
    var text := Normalize(command);
    match Classify(oracle.matches, oracle.scores)
    case ReadEmail => ReadRequest(Query(text, oracle.dateQualifiers))
    case SearchEmail => SearchRequest(Query(text, oracle.dateQualifiers))
    case SendEmail =>
      SendRequest(
        IfPresent(Extract.ExtractSender(text)),
        IfPresent(Extract.ExtractSubject(text)),
        IfPresent(Extract.ExtractContent(text)))
    case Unknown => NotUnderstood(NotUnderstoodMessage(command))
  }

  /** Every part is non-empty and has no whitespace at its ends. */
  predicate CleanParts(xs: seq<string>) {
    forall k :: 0 <= k < |xs| ==> |xs[k]| > 0 && NoEdgeSpace(xs[k])
  }

  lemma CleanPartsAppend(xs: seq<string>, ys: seq<string>)
    requires CleanParts(xs) && CleanParts(ys)
    ensures CleanParts(xs + ys)
  {
    assert forall k :: |xs| <= k < |xs + ys| ==> (xs + ys)[k] == ys[k - |xs|];
  }

  /** A qualifier `prefix + v` for a non-empty `v` without edge whitespace is itself clean. */
  lemma QualifierClean(prefix: string, v: string)
    requires |prefix| > 0 && !IsSpace(prefix[0])
    requires |v| > 0 && NoEdgeSpace(v)
    ensures |prefix + v| > 0 && NoEdgeSpace(prefix + v)
  {
    var q := prefix + v;
    assert q[|q| - 1] == v[|v| - 1];
  }

  /** Each part of the query is non-empty and has no whitespace at its ends. */
  lemma QueryOfClean(folder: string, sender: Option<string>, subject: Option<string>)
    requires NoEdgeSpace(folder)
    requires Present(sender) ==> NoEdgeSpace(sender.value)
    requires Present(subject) ==> NoEdgeSpace(subject.value)
    ensures CleanParts(QueryOf(folder, sender, subject))
  {
    var a: seq<string> := if folder != "" then [folder] else [];
    var b: seq<string> := if Present(sender) then ["from:" + sender.value] else [];
    var c: seq<string> := if Present(subject) then ["subject:" + subject.value] else [];
    assert CleanParts(a);
    if Present(sender) {
      QualifierClean("from:", sender.value);
    }
    assert CleanParts(b);
    if Present(subject) {
      QualifierClean("subject:", subject.value);
    }
    assert CleanParts(c);
    CleanPartsAppend(a, b);
    CleanPartsAppend(a + b, c);
    assert QueryOf(folder, sender, subject) == a + b + c;
  }

  /** The joined query is empty exactly when no part is present. */
  lemma QueryOfEmpty(folder: string, sender: Option<string>, subject: Option<string>)
    requires NoEdgeSpace(folder)
    requires Present(sender) ==> NoEdgeSpace(sender.value)
    requires Present(subject) ==> NoEdgeSpace(subject.value)
    ensures Join(QueryOf(folder, sender, subject)) == "" <==> folder == "" && !Present(sender) && !Present(subject)
  {
    QueryOfClean(folder, sender, subject);
    JoinNoEdge(QueryOf(folder, sender, subject));
  }

  /** The joined query starts with its first part and ends with its last part. */
  lemma QueryOfEnds(folder: string, sender: Option<string>, subject: Option<string>)
    ensures var q := Join(QueryOf(folder, sender, subject));
      && (folder != "" ==> |folder| <= |q| && q[..|folder|] == folder)
      && (Present(subject) ==> |"subject:" + subject.value| <= |q| && q[|q| - |"subject:" + subject.value|..] == "subject:" + subject.value)
  {
    var parts := QueryOf(folder, sender, subject);
    if |parts| > 0 {
      JoinFirst(parts);
      JoinLast(parts);
    }
  }

  lemma PrefixOfSuffix(q: string, p: nat, n: nat)
    requires p + n <= |q|
    ensures q[p..p + n] == q[p..][..n]
  {
  }

  /** The sender qualifier follows the folder/filter part after one space, or opens the query. */
  lemma QueryOfSender(folder: string, sender: Option<string>, subject: Option<string>)
    requires Present(sender)
    ensures OccursAt(Join(QueryOf(folder, sender, subject)), "from:" + sender.value, if folder == "" then 0 else |folder| + 1)
  {
    var w := "from:" + sender.value;
    var rest: seq<string> := [w] + (if Present(subject) then ["subject:" + subject.value] else []);
    JoinFirst(rest);
    var q := Join(QueryOf(folder, sender, subject));
    if folder == "" {
      assert QueryOf(folder, sender, subject) == rest;
    } else {
      assert QueryOf(folder, sender, subject) == [folder] + rest;
      JoinAppend([folder], rest);
      var j := Join(rest);
      assert q == (folder + " ") + j;
      assert q[|folder| + 1..] == j;
      PrefixOfSuffix(q, |folder| + 1, |w|);
    }
  }

  /** The inputs of the query builder have no whitespace at their ends. */
  lemma QueryInputsClean(text: string, dates: seq<string>)
    requires forall k :: 0 <= k < |dates| ==> Filters.IsWord(dates[k])
    ensures NoEdgeSpace(Filters.LabelsAndFilters(text, dates))
    ensures var s := Extract.ExtractSender(text); Present(s) ==> NoEdgeSpace(s.value)
    ensures var s := Extract.ExtractSubject(text); Present(s) ==> NoEdgeSpace(s.value)
  {
  }

  /**
    Layout of `full_query`: folder/filter part first, then `from:<sender>`
    after one space, then `subject:<subject>` at the end; absent parts
    contribute nothing, and the query is empty when all three are absent.
   */
  lemma QueryLayout(text: string, dates: seq<string>)
    requires forall k :: 0 <= k < |dates| ==> Filters.IsWord(dates[k])
    ensures var q := Query(text, dates);
      var folder := Filters.LabelsAndFilters(text, dates);
      var sender := Extract.ExtractSender(text);
      var subject := Extract.ExtractSubject(text);
      && (q == "" <==> folder == "" && !Present(sender) && !Present(subject))
      && (folder != "" ==> |folder| <= |q| && q[..|folder|] == folder)
      && (Present(sender) ==> OccursAt(q, "from:" + sender.value, if folder == "" then 0 else |folder| + 1))
      && (Present(subject) ==> |"subject:" + subject.value| <= |q| && q[|q| - |"subject:" + subject.value|..] == "subject:" + subject.value)
  {
    var folder := Filters.LabelsAndFilters(text, dates);
    var sender := Extract.ExtractSender(text);
    var subject := Extract.ExtractSubject(text);
    assert QueryParts(text, dates) == QueryOf(folder, sender, subject);
    assert Query(text, dates) == Join(QueryOf(folder, sender, subject));
    QueryInputsClean(text, dates);
    JoinLayout(folder, sender, subject);
  }

  /** The layout of the joined parts, for parts without whitespace at their ends. */
  lemma JoinLayout(folder: string, sender: Option<string>, subject: Option<string>)
    requires NoEdgeSpace(folder)
    requires Present(sender) ==> NoEdgeSpace(sender.value)
    requires Present(subject) ==> NoEdgeSpace(subject.value)
    ensures var q := Join(QueryOf(folder, sender, subject));
      && (q == "" <==> folder == "" && !Present(sender) && !Present(subject))
      && (folder != "" ==> |folder| <= |q| && q[..|folder|] == folder)
      && (Present(sender) ==> OccursAt(q, "from:" + sender.value, if folder == "" then 0 else |folder| + 1))
      && (Present(subject) ==> |"subject:" + subject.value| <= |q| && q[|q| - |"subject:" + subject.value|..] == "subject:" + subject.value)
  {
    QueryOfEmpty(folder, sender, subject);
    QueryOfEnds(folder, sender, subject);
    if Present(sender) {
      QueryOfSender(folder, sender, subject);
    }
  }

  /** A send request carries each field only when its extraction gave a non-empty string, and without whitespace at its ends. */
  lemma SendFieldsNonEmpty(command: string, oracle: NlpOracle)
    requires |oracle.scores| == |ExampleLabels|
    requires ProcessCommand(command, oracle).SendRequest?
    ensures var r := ProcessCommand(command, oracle);
      && (r.to.Some? ==> r.to.value != "" && NoEdgeSpace(r.to.value))
      && (r.subject.Some? ==> r.subject.value != "" && NoEdgeSpace(r.subject.value))
      && (r.body.Some? ==> r.body.value != "" && NoEdgeSpace(r.body.value))
      && (r.to.None? <==> !Present(Extract.ExtractSender(Normalize(command))))
  {
  }
}

=== FILE: conversation.dfy ===
/**
  A whole send-email conversation driven through the handler: a request
  naming subject and body but no recipient, then the recipient, then the
  subject asked for again, then the body.
 */
module Conversation {
  import opened Wrappers
  import opened Text
  import opened Intents
  import opened Command
  import opened Dialogue
  import opened ExtractExample
  import DialogueProperties
  import EmailAddress
  import Count

  const Client: SessionId := "client-1"
  const Address := "jane@example.com"
  const NoScores: seq<real> := seq(|ExampleLabels|, _ => 0.0)

  /** The turn's environment: the rule matcher reports SEND_EMAIL and the backend is up. */
  const SendEnv := Env(true, NlpOracle([SendEmail], NoScores, []), Sent, Listed([]))

  /** A command already in the handler's normal form is left as it is. */
  lemma CleanUnchanged(s: string)
    requires Plain(s) && NoEdgeSpace(s)
    ensures Clean(s) == s
  {
    StripNoEdge(s);
  }

  /** Without the letters "ca" or "ev" in a row, a command is not a cancel. */
  lemma NotCancel(s: string)
    requires NoPairBefore(s, |s|, 'c', 'a') && NoPairBefore(s, |s|, 'e', 'v')
    ensures !IsCancel(s)
  {
    forall i | 0 <= i <= |s| ensures !OccursAt(s, "cancel", i) && !OccursAt(s, "never mind", i) {
      if i + 6 <= |s| {
        assert !PairAt(s, i, 'c', 'a');
        assert s[i..i + 6][0] == s[i] && s[i..i + 6][1] == s[i + 1];
      }
      if i + 10 <= |s| {
        assert !PairAt(s, i + 1, 'e', 'v');
        assert s[i..i + 10][1] == s[i + 1] && s[i..i + 10][2] == s[i + 2];
      }
    }
  }

  /** Without a digit the count pattern cannot match. */
  lemma NoCountWithoutDigits(s: string)
    requires forall k :: 0 <= k < |s| ==> !IsDigit(s[k])
    ensures Count.RequestedCount(s).None?
  {
    forall i: nat, d: nat ensures !Count.CountMatch(s, i, d) {
      if i < d <= |s| {
        assert !IsDigit(s[i]);
      }
    }
  }

  /** The letters `x` then `y` do not occur across the join of two texts that each avoid them. */
  lemma NoPairJoin(a: string, b: string, x: char, y: char)
    requires NoPairBefore(a, |a|, x, y) && NoPairBefore(b, |b|, x, y)
    requires |a| > 0 && |b| > 0 ==> a[|a| - 1] != x || b[0] != y
    ensures NoPairBefore(a + b, |a + b|, x, y)
  {
    var s := a + b;
    forall i | 0 <= i < |s| && i + 1 < |s| ensures !PairAt(s, i, x, y) {
      if i + 1 < |a| {
        assert !PairAt(a, i, x, y);
      } else if i >= |a| {
        assert !PairAt(b, i - |a|, x, y);
      }
    }
  }

  lemma RequestPairs()
    ensures NoPairBefore(Request, |Request|, 'c', 'a') && NoPairBefore(Request, |Request|, 'e', 'v')
  {
    var a, b, c := "send email ", "about lunch ", "saying hi";
    assert Request == (a + b) + c;
    assert NoPairBefore(a, |a|, 'c', 'a') && NoPairBefore(b, |b|, 'c', 'a') && NoPairBefore(c, |c|, 'c', 'a');
    assert NoPairBefore(a, |a|, 'e', 'v') && NoPairBefore(b, |b|, 'e', 'v') && NoPairBefore(c, |c|, 'e', 'v');
    NoPairJoin(a, b, 'c', 'a');
    NoPairJoin(a + b, c, 'c', 'a');
    NoPairJoin(a, b, 'e', 'v');
    NoPairJoin(a + b, c, 'e', 'v');
  }

  lemma RequestNoDigit()
    ensures forall k :: 0 <= k < |Request| ==> !IsDigit(Request[k])
  {
    var a, b, c := "send email ", "about lunch ", "saying hi";
    assert Request == a + b + c;
  }

  /** The request is in normal form and is not a cancel. */
  lemma RequestIsCommand(request: string)
    requires request == Request
    ensures Clean(request) == request && !IsCancel(request)
  {
    RequestPlain();
    RequestPairs();
    CleanUnchanged(request);
    NotCancel(request);
  }

  /** The language processor's verdict on the request: a send with subject and body but no recipient. */
  lemma RequestVerdict(request: string)
    requires request == Request
    ensures ProcessCommand(request, SendEnv.nlp) == SendRequest(None, Some("lunch saying hi"), Some("hi"))
  {
    RequestPlain();
    assert Lower(request) == request;
    StripNoEdge(request);
    assert Normalize(request) == request;
    SubjectExample(request);
    ContentExample(request);
    SenderExample(request);
  }

  const Opened := ConvState(SendEmail, None, Some("lunch saying hi"), Some("hi"), WaitingForTo)

  /** The request names no count, so nothing is clamped and no notice is given. */
  lemma OpeningCount(request: string)
    requires request == Request
    ensures Count.ExplicitCount(request) == None && CountNotices(request) == []
  {
    RequestNoDigit();
    NoCountWithoutDigits(request);
  }

  /** First turn: the request opens a conversation that asks for the recipient. */
  lemma OpeningTurn(request: string)
    requires request == Request
    ensures HandleCommand(map[], Client, request, SendEnv) == Turn(map[Client := Opened], [Reply(Info, AskRecipientText)])
  {
    RequestIsCommand(request);
    OpeningCount(request);
    RequestVerdict(request);
    DialogueProperties.SendWithoutRecipientOpens(map[], Client, request, SendEnv);
  }

  lemma AddressMatches()
    ensures EmailAddress.IsAddressMatch(Address, EmailAddress.AddressMatch(0, 4, 12, 16))
  {
    var a, b, c := "jane", "@example", ".com";
    assert Address == a + b + c;
  }

  /**
    A text that is one address from the first to the last character, with no
    other dot in the two places before the end, is its own recipient.
   */
  lemma WholeAddress(s: string, at: nat, dot: nat)
    requires EmailAddress.IsAddressMatch(s, EmailAddress.AddressMatch(0, at, dot, |s|))
    requires forall d :: dot < d < |s| - 2 ==> s[d] != '.'
    ensures EmailAddress.Recipient(s) == s
  {
    var m0 := EmailAddress.AddressMatch(0, at, dot, |s|);
    var found := EmailAddress.FindAddress(s);
    assert found.Some?;
    var m := found.value;
    assert EmailAddress.IsAddressMatch(s, m) && EmailAddress.Preferred(m, m0);
    assert m.start == 0;
    assert m.dot == dot;
    assert m.end == |s|;
  }

  /** The whole address is the first (and only) match of the address pattern. */
  lemma RecipientExample(address: string)
    requires address == Address
    ensures EmailAddress.Recipient(address) == address
  {
    AddressMatches();
    assert address[13] == 'c';
    WholeAddress(address, 4, 12);
  }

  lemma AddressIsCommand(address: string)
    requires address == Address
    ensures Clean(address) == address && !IsCancel(address)
  {
    assert Plain(address) && NoEdgeSpace(address);
    assert NoPairBefore(address, |address|, 'c', 'a') && NoPairBefore(address, |address|, 'e', 'v');
    CleanUnchanged(address);
    NotCancel(address);
  }

  const Addressed := Opened.(to := Some(Address), step := WaitingForSubject)

  /**
    Second turn: the address fills the recipient, and the conversation then
    asks for the subject although the request already gave one.
   */
  lemma RecipientGiven(address: string)
    requires address == Address
    ensures HandleCommand(map[Client := Opened], Client, address, SendEnv) ==
      Turn(map[Client := Addressed], [Reply(Info, AskSubjectText(address))])
  {
    AddressIsCommand(address);
    RecipientExample(address);
    DialogueProperties.RecipientTurn(map[Client := Opened], Client, address, SendEnv);
    AddressedTable(address);
  }

  lemma AddressedTable(address: string)
    requires address == Address
    ensures map[Client := Opened][Client := Opened.(to := Some(address), step := WaitingForSubject)] == map[Client := Addressed]
  {
  }

  /** A lower-case answer without the letters "ca" or "ev" in a row is taken as it is. */
  lemma AnswerIsCommand(answer: string)
    requires answer == "lunch" || answer == "see you at noon"
    ensures Clean(answer) == answer && !IsCancel(answer)
  {
    assert Plain(answer) && NoEdgeSpace(answer);
    assert NoPairBefore(answer, |answer|, 'c', 'a') && NoPairBefore(answer, |answer|, 'e', 'v');
    CleanUnchanged(answer);
    NotCancel(answer);
  }

  const Titled := Addressed.(subject := Some("lunch"), step := WaitingForBody)

  /** Third turn: the answer replaces the subject taken from the request. */
  lemma SubjectGiven(subject: string)
    requires subject == "lunch"
    ensures HandleCommand(map[Client := Addressed], Client, subject, SendEnv) ==
      Turn(map[Client := Titled], [Reply(Info, AskBodyText(subject))])
  {
    AnswerIsCommand(subject);
    DialogueProperties.SubjectTurnAdvances(map[Client := Addressed], Client, subject, SendEnv);
  }

  /** Fourth turn: the answer replaces the body taken from the request, the message is sent and the conversation closed. */
  lemma BodyGiven(body: string)
    requires body == "see you at noon"
    ensures HandleCommand(map[Client := Titled], Client, body, SendEnv) ==
      Turn(map[], [SendCall(Some(Address), Some("lunch"), Some(body)), Reply(Info, SentText)])
  {
    AnswerIsCommand(body);
    DialogueProperties.BodyTurnSends(map[Client := Titled], Client, body, SendEnv);
    assert map[Client := Titled] - {Client} == map[];
  }

  /**
    The whole conversation: four turns leave no conversation open and make
    exactly one send, with the recipient, subject and body of the later
    answers.
   */
  lemma WholeConversation(request: string, address: string, subject: string, body: string)
    requires request == Request && address == Address && subject == "lunch" && body == "see you at noon"
    ensures var t1 := HandleCommand(map[], Client, request, SendEnv);
      var t2 := HandleCommand(t1.sessions, Client, address, SendEnv);
      var t3 := HandleCommand(t2.sessions, Client, subject, SendEnv);
      var t4 := HandleCommand(t3.sessions, Client, body, SendEnv);
      && t1.events == [Reply(Info, AskRecipientText)]
      && t2.events == [Reply(Info, AskSubjectText(address))]
      && t3.events == [Reply(Info, AskBodyText(subject))]
      && t4.events == [SendCall(Some(address), Some(subject), Some(body)), Reply(Info, SentText)]
      && t4.sessions == map[]
  {
    OpeningTurn(request);
    var t1 := HandleCommand(map[], Client, request, SendEnv);
    assert t1.sessions == map[Client := Opened];
    RecipientGiven(address);
    var t2 := HandleCommand(t1.sessions, Client, address, SendEnv);
    assert t2.sessions == map[Client := Addressed];
    SubjectGiven(subject);
    var t3 := HandleCommand(t2.sessions, Client, subject, SendEnv);
    assert t3.sessions == map[Client := Titled];
    BodyGiven(body);
    var t4 := HandleCommand(t3.sessions, Client, body, SendEnv);
    assert t4.sessions == map[];
  }
}

=== FILE: count.dfy ===
/**
  The explicit result count of `handle_command` in `app.py`:
  `re.search(r'(\d+)\s*.*?\s*(?:emails?|mails?)', command)`, `int(group(1))`,
  then the clamp to the range the backend is asked for.
 */
module Count {
  import opened Wrappers
  import opened Text

  const MaxFetchLimit: nat := 100
  const DefaultWhenZero: nat := 5

  const ZeroCountText := "Please specify a number greater than zero. Fetching default 5 emails for now."
  const CapCountText := "I can only fetch up to 100 emails for specific requests. Fetching 100 emails."

  /**
    After the digits end at `d`, the rest of the pattern, `\s*.*?\s*` and then
    "email" or "mail", can match: whitespace, then text on one line, then
    whitespace, then the mail word.
   */
  predicate RestMatches(s: string, d: nat) {
    exists a, b, m | d <= a <= b <= m <= |s| ::
      && AllIn(s, d, a, IsSpace)
      && AllIn(s, a, b, NotNewline)
      && AllIn(s, b, m, IsSpace)
      && (OccursAt(s, "email", m) || OccursAt(s, "mail", m))
  }

  /** One way the pattern matches: the digits `s[i..d]` are group 1 and the rest matches after them. */
  predicate CountMatch(s: string, i: nat, d: nat) {
    i < d <= |s| && AllIn(s, i, d, IsDigit) && RestMatches(s, d)
  }

  /** A mail word starts with a letter, so never with a digit or whitespace. */
  lemma MailWordStart(s: string, m: nat)
    requires OccursAt(s, "email", m) || OccursAt(s, "mail", m)
    ensures m < |s| && !IsDigit(s[m]) && !IsSpace(s[m])
  {
    if OccursAt(s, "email", m) {
      assert s[m] == s[m..m + 5][0] == 'e';
    } else {
      assert s[m] == s[m..m + 4][0] == 'm';
    }
  }

  /**
    The part of a match after a shorter digit group: the leading `\s*` is
    empty, because a digit follows, and the `.*?` spans the rest of the run.
   */
  lemma RestAfterRun(s: string, d: nat, e: nat, a: nat, b: nat, m: nat)
    requires d < e <= |s| && forall k :: d <= k < e ==> IsDigit(s[k])
    requires d <= a <= b <= m < |s| && !IsDigit(s[m])
    requires AllIn(s, d, a, IsSpace) && AllIn(s, a, b, NotNewline) && AllIn(s, b, m, IsSpace)
    ensures e <= b <= m && AllIn(s, e, b, NotNewline) && AllIn(s, b, m, IsSpace)
  {
    assert IsDigit(s[d]);
    assert a == d;
    assert IsDigit(s[e - 1]);
  }

  /** Explicit positions for the three parts make the rest of the pattern match. */
  lemma RestWitness(s: string, x: nat, a: nat, b: nat, m: nat)
    requires x <= a <= b <= m <= |s|
    requires AllIn(s, x, a, IsSpace) && AllIn(s, a, b, NotNewline) && AllIn(s, b, m, IsSpace)
    requires OccursAt(s, "email", m) || OccursAt(s, "mail", m)
    ensures RestMatches(s, x)
  {
  }

  /**
    Giving back digits never helps: if the pattern matches with a shorter
    digit group, it also matches with the whole digit run.
   */
  lemma WholeDigitRun(s: string, i: nat, d: nat)
    requires CountMatch(s, i, d)
    ensures d <= RunEnd(s, i, IsDigit)
    ensures RestMatches(s, RunEnd(s, i, IsDigit))
  {
    var e := RunEnd(s, i, IsDigit);
    if d < e {
      var a, b, m :| d <= a <= b <= m <= |s|
        && AllIn(s, d, a, IsSpace) && AllIn(s, a, b, NotNewline) && AllIn(s, b, m, IsSpace)
        && (OccursAt(s, "email", m) || OccursAt(s, "mail", m));
      MailWordStart(s, m);
      RestAfterRun(s, d, e, a, b, m);
      RestWitness(s, e, e, b, m);
    }
  }

  /** The pattern matches at `i` (with the greedy digit group). */
  predicate CountAt(s: string, i: nat) {
    i < |s| && IsDigit(s[i]) && RestMatches(s, RunEnd(s, i, IsDigit))
  }

  /** Group 1 of the search: the bounds of the digits, or None if the pattern matches nowhere. */
  function FindCount(s: string): (r: Option<(nat, nat)>)
    ensures r.Some? ==> CountMatch(s, r.value.0, r.value.1)
    ensures r.Some? ==> forall i: nat, d: nat :: CountMatch(s, i, d) ==>
      r.value.0 < i || (r.value.0 == i && d <= r.value.1)
    ensures r.None? ==> forall i: nat, d: nat :: !CountMatch(s, i, d)
  {
    var at := (i: nat) => CountAt(s, i);
    assert forall i: nat :: at(i) == CountAt(s, i);
    assert forall i: nat, d: nat :: CountMatch(s, i, d) ==> CountAt(s, i) && d <= RunEnd(s, i, IsDigit) by {
      forall i: nat, d: nat | CountMatch(s, i, d) ensures CountAt(s, i) && d <= RunEnd(s, i, IsDigit) {
        WholeDigitRun(s, i, d);
      }
    }
    match FirstFrom(0, |s|, at)
    case None => None
    case Some(i) => Some((i, RunEnd(s, i, IsDigit)))
  }

  /**
    The match `re.search` returns: the leftmost start, and there the longest
    digit group.
   */
  ghost predicate FirstCountMatch(s: string, i: nat, d: nat) {
    && CountMatch(s, i, d)
    && forall i': nat, d': nat :: CountMatch(s, i', d') ==> i < i' || (i == i' && d' <= d)
  }

  /** There is only one match the search can return. */
  lemma FirstCountMatchUnique(s: string, i: nat, d: nat, i': nat, d': nat)
    requires FirstCountMatch(s, i, d) && FirstCountMatch(s, i', d')
    ensures i == i' && d == d'
  {
    assert CountMatch(s, i', d') && CountMatch(s, i, d);
  }

  /**
    `int(match_num.group(1))`: the value of the digit group of the match the
    search returns, if the pattern matches.
   */
  function RequestedCount(command: string): (r: Option<nat>)
    ensures r.None? <==> forall i: nat, d: nat :: !CountMatch(command, i, d)
    ensures r.Some? ==> exists i: nat, d: nat :: FirstCountMatch(command, i, d)
    ensures forall i: nat, d: nat :: FirstCountMatch(command, i, d) ==> r == Some(DigitsValue(command[i..d]))
  {
    match FindCount(command)
    case None => None
    case Some((i, d)) =>
      assert FirstCountMatch(command, i, d);
      forall i': nat, d': nat | FirstCountMatch(command, i', d') ensures i' == i && d' == d {
        FirstCountMatchUnique(command, i, d, i', d');
      }
      Some(DigitsValue(command[i..d]))
  }

  /** 0 becomes the default 5, anything above the limit becomes the limit. */
  function Clamp(n: nat): (r: nat)
    ensures 1 <= r <= MaxFetchLimit
    ensures 1 <= n <= MaxFetchLimit ==> r == n
    ensures n == 0 ==> r == DefaultWhenZero
    ensures n > MaxFetchLimit ==> r == MaxFetchLimit
  {
    if n == 0 then DefaultWhenZero
    else if n > MaxFetchLimit then MaxFetchLimit
    else n
  }

  /** The notice emitted when the requested number is adjusted. */
  function ClampNotice(n: nat): (r: Option<string>)
    ensures r.Some? <==> Clamp(n) != n
    ensures n == 0 ==> r == Some(ZeroCountText)
    ensures n > MaxFetchLimit ==> r == Some(CapCountText)
  {
    if n == 0 then Some(ZeroCountText)
    else if n > MaxFetchLimit then Some(CapCountText)
    else None
  }

  /** `num_emails_to_fetch_explicitly`. */
  function ExplicitCount(command: string): (r: Option<nat>)
    ensures r.None? <==> RequestedCount(command).None?
    ensures r.Some? ==> r.value == Clamp(RequestedCount(command).value)
  {
    match RequestedCount(command)
    case None => None
    case Some(n) => Some(Clamp(n))
  }

  const SevenRequest := "find 7 emails about sales"

  /** The only digit of "find 7 emails about sales" is the 7 at position 5. */
  lemma SevenDigits(s: string)
    requires s == SevenRequest
    ensures forall k :: 0 <= k < |s| && IsDigit(s[k]) ==> k == 5
  {
    assert s == "find " + "7" + " emails about sales";
  }

  /** The match at the 7, with "emails" right after one space. */
  lemma SevenMatch(s: string)
    requires s == SevenRequest
    ensures CountMatch(s, 5, 6)
  {
    assert s[7..12] == "email";
    RestWitness(s, 6, 7, 7, 7);
  }

  /** "find 7 emails about sales" asks for 7: the digit group of the leftmost match. */
  lemma SevenRequested()
    ensures RequestedCount(SevenRequest) == Some(7)
  {
    var s := SevenRequest;
    SevenDigits(s);
    SevenMatch(s);
    forall i': nat, d': nat | CountMatch(s, i', d') ensures 5 < i' || (5 == i' && d' <= 6) {
      assert IsDigit(s[i']);
      if i' == 5 {
        assert !IsDigit(s[6]);
      }
    }
    assert FirstCountMatch(s, 5, 6);
    assert s[5..6] == "7";
    assert DigitsValue("7") == 7;
  }
}

=== FILE: dialogue.dfy ===
/**
  `handle_command` and the disconnect handler of `app.py`: the per-session
  send-email dialogue over the table of open conversations, and the routing
  of a fresh command to listing or sending. The table is passed in and
  returned; what the handler emits and the backend calls it makes are
  returned as an ordered list of events. The outcomes of the backend calls
  (send succeeded or failed, listing returned messages or failed) and the
  language components' verdicts are inputs.
 */
module Dialogue {
  import opened Wrappers
  import opened Text
  import opened Intents
  import opened Command
  import EmailAddress
  import Count

  /** Which slot the open conversation is waiting for; `NoStep` is the initial empty step. */
  datatype Step = WaitingForTo | WaitingForSubject | WaitingForBody | NoStep

  /** One entry of `active_conversations`. */
  datatype ConvState = ConvState(intent: Intent, to: Option<string>, subject: Option<string>, body: Option<string>, step: Step)

  type SessionId = string

  type Sessions = map<SessionId, ConvState>

  /** The `type` field of an `agent_response`. */
  datatype Kind = Error | Info

  /** A listed message as the backend returns it. */
  datatype Email = Email(sender: string, subject: string, snippet: string)

  /** What one turn emits to the client or asks of the mail backend, in order. */
  datatype Event =
    | Reply(kind: Kind, text: string)
    | Intro(count: nat, explicit: bool)
    | Snippets(emails: seq<Email>)
    | SendCall(to: Option<string>, subject: Option<string>, body: Option<string>)
    | ListCall(query: string, maxResults: nat)

  datatype SendOutcome = Sent | SendFailed(reason: string)

  datatype ListOutcome = Listed(emails: seq<Email>) | ListFailed(reason: string)

  /**
    The environment of one turn: whether the backend client was built, the
    language components' verdicts, and the outcome the backend would give.
   */
  datatype Env = Env(backendReady: bool, nlp: NlpOracle, send: SendOutcome, list: ListOutcome)

  datatype Turn = Turn(sessions: Sessions, events: seq<Event>)

  /** `max_results` of the backend's listing when the caller gives none. */
  const DefaultListSize: nat := 50

  const NoCommandText := "No command received. Please try speaking or typing a command."
  const BackendText := "Backend is not configured correctly for Gmail operations. Please check server logs."
  const CancelText := "Okay, I've cancelled the current operation. What else can I help with?"
  const RecipientRetryText := "I couldn't understand the recipient. Please tell me who this email is for?"
  const SubjectRetryText := "I couldn't get the subject. Please tell me the subject?"
  const BodyRetryText := "I couldn't get the body. What should the body of the email say?"
  const AskRecipientText := "Okay, I can help send an email. Who is the recipient?"
  const SentText := "Email sent successfully!"
  const NoEmailsText := "No emails found matching your query."

  const SendingToText := "Okay, sending to "
  const WhatSubjectText := ". What should be the subject?"
  const SubjectIsText := "Subject is '"
  const WithSubjectText := " with subject '"
  const WhatBodyText := "'. What should the body of the email say?"
  const SendFailedText := "Failed to send email: "
  const ListFailedText := "Failed to retrieve emails: "

  function AskSubjectText(to: string): string {
    SendingToText + to + WhatSubjectText
  }

  function AskBodyText(subject: string): string {
    SubjectIsText + subject + WhatBodyText
  }

  function AskBodyWithRecipientText(to: string, subject: string): string {
    SendingToText + to + WithSubjectText + subject + WhatBodyText
  }

  function SendResultText(outcome: SendOutcome): string {
    match outcome
    case Sent => SentText
    case SendFailed(e) => SendFailedText + e
  }

  /** The scores cover the whole example corpus. */
  predicate WellFormedEnv(env: Env) {
    |env.nlp.scores| == |ExampleLabels|
  }

  predicate IsCancel(command: string) {
    Contains(command, "cancel") || Contains(command, "never mind")
  }

  /**
    The invariant of the conversation table: every open conversation is a
    send-email dialogue waiting for a slot, and every slot before the awaited
    one holds a non-empty value.
   */
  predicate ValidState(c: ConvState) {
    && c.intent == SendEmail
    && c.step != NoStep
    && (c.step != WaitingForTo ==> Present(c.to))
    && (c.step == WaitingForBody ==> Present(c.subject))
  }

  predicate Valid(sessions: Sessions) {
    forall sid :: sid in sessions ==> ValidState(sessions[sid])
  }

  /** Sends the drafted message and closes the conversation, whatever the outcome. */
  function SendAndClose(sessions: Sessions, sid: SessionId, to: Option<string>, subject: Option<string>, body: Option<string>, outcome: SendOutcome): (t: Turn)
    ensures sid !in t.sessions
    ensures t.events == [SendCall(to, subject, body), Reply(Info, SendResultText(outcome))]
    ensures forall other :: other != sid ==> (other in t.sessions <==> other in sessions)
    ensures forall other :: other != sid && other in sessions ==> t.sessions[other] == sessions[other]
  {
    Turn(sessions - {sid}, [SendCall(to, subject, body), Reply(Info, SendResultText(outcome))])
  }

  /** One turn of an open send-email conversation (lines 77-115 of `app.py`). */
  function Continue(sessions: Sessions, sid: SessionId, command: string, outcome: SendOutcome): (t: Turn)
    requires sid in sessions
    ensures forall other :: other != sid ==> (other in t.sessions <==> other in sessions)
    ensures forall other :: other != sid && other in sessions ==> t.sessions[other] == sessions[other]
  {
    var c := sessions[sid];
    match c.step
    case WaitingForTo =>
      var recipient := EmailAddress.Recipient(command);
      if recipient != "" then
        Turn(sessions[sid := c.(to := Some(recipient), step := WaitingForSubject)], [Reply(Info, AskSubjectText(recipient))])
      else
        Turn(sessions, [Reply(Info, RecipientRetryText)])
    case WaitingForSubject =>
      var subject := Strip(command);
      if subject != "" then
        Turn(sessions[sid := c.(subject := Some(subject), step := WaitingForBody)], [Reply(Info, AskBodyText(subject))])
      else
        Turn(sessions, [Reply(Info, SubjectRetryText)])
    case WaitingForBody =>
      var body := Strip(command);
      if body != "" then
        SendAndClose(sessions, sid, c.to, c.subject, Some(body), outcome)
      else
        Turn(sessions, [Reply(Info, BodyRetryText)])
    case NoStep =>
      Turn(sessions, [])
  }

  /**
    A fresh SEND_EMAIL request (lines 199-226): a new conversation replaces
    any old one and waits for the first missing slot; with nothing missing
    the message is sent at once and the conversation closed.
   */
  function StartSend(sessions: Sessions, sid: SessionId, to: Option<string>, subject: Option<string>, body: Option<string>, outcome: SendOutcome): (t: Turn)
    ensures forall other :: other != sid ==> (other in t.sessions <==> other in sessions)
    ensures forall other :: other != sid && other in sessions ==> t.sessions[other] == sessions[other]
  {
    var c := ConvState(SendEmail, to, subject, body, NoStep);
    if !Present(to) then
      Turn(sessions[sid := c.(step := WaitingForTo)], [Reply(Info, AskRecipientText)])
    else if !Present(subject) then
      Turn(sessions[sid := c.(step := WaitingForSubject)], [Reply(Info, AskSubjectText(to.value))])
    else if !Present(body) then
      Turn(sessions[sid := c.(step := WaitingForBody)], [Reply(Info, AskBodyWithRecipientText(to.value, subject.value))])
    else
      SendAndClose(sessions, sid, to, subject, body, outcome)
  }

  /** Listing for a READ or SEARCH request (lines 143-167). */
  function ListEvents(query: string, explicit: Option<nat>, outcome: ListOutcome): (r: seq<Event>)
    ensures |r| > 0 && r[0] == ListCall(query, explicit.GetOr(DefaultListSize))
  {
    [ListCall(query, explicit.GetOr(DefaultListSize))]
    + match outcome
      case Listed(emails) =>
        if |emails| > 0 then [Intro(|emails|, explicit.Some? && explicit.value != 0), Snippets(emails)]
        else [Reply(Info, NoEmailsText)]
      case ListFailed(e) => [Reply(Error, ListFailedText + e)]
  }

  /** The notice emitted when the requested count is adjusted. */
  function CountNotices(command: string): seq<Event> {
    NoticesFor(Count.RequestedCount(command))
  }

  function NoticesFor(requested: Option<nat>): seq<Event> {
    match requested
    case None => []
    case Some(n) =>
      match Count.ClampNotice(n)
      case None => []
      case Some(text) => [Reply(Info, text)]
  }

  /**
    Acts on the language processor's verdict for a command with no open
    conversation (lines 143-230). Only a send request can touch the table, and
    a read or search request starts with the listing call.
   */
  function Route(sessions: Sessions, sid: SessionId, verdict: NlpResult, explicit: Option<nat>, env: Env): (t: Turn)
    ensures forall other :: other != sid ==> (other in t.sessions <==> other in sessions)
    ensures forall other :: other != sid && other in sessions ==> t.sessions[other] == sessions[other]
    ensures !verdict.SendRequest? ==> t.sessions == sessions
    ensures verdict.ReadRequest? || verdict.SearchRequest? ==>
      |t.events| > 0 && t.events[0] == ListCall(verdict.query, explicit.GetOr(DefaultListSize))
  {
    match verdict
    case ReadRequest(q) => Turn(sessions, ListEvents(q, explicit, env.list))
    case SearchRequest(q) => Turn(sessions, ListEvents(q, explicit, env.list))
    case SendRequest(to, subject, body) => StartSend(sessions, sid, to, subject, body, env.send)
    case NotUnderstood(message) => Turn(sessions, [Reply(Info, message)])
  }

  /** A command with no open conversation (lines 117-230): count notice first, then the routed answer. */
  function Fresh(sessions: Sessions, sid: SessionId, command: string, env: Env): (t: Turn)
    requires WellFormedEnv(env)
    ensures forall other :: other != sid ==> (other in t.sessions <==> other in sessions)
    ensures forall other :: other != sid && other in sessions ==> t.sessions[other] == sessions[other]
    ensures |CountNotices(command)| <= |t.events| && t.events[..|CountNotices(command)|] == CountNotices(command)
  {
    var t := Route(sessions, sid, ProcessCommand(command, env.nlp), Count.ExplicitCount(command), env);
    Turn(t.sessions, CountNotices(command) + t.events)
  }

  /**
    The command as the handler reads it, stripped and then lower-cased: no
    upper-case letter, no whitespace at the ends, and empty exactly when the
    raw text is all whitespace.
   */
  function Clean(raw: string): (r: string)
    ensures NoEdgeSpace(r)
    ensures forall i :: 0 <= i < |r| ==> !('A' <= r[i] <= 'Z')
    ensures r == "" <==> AllIn(raw, 0, |raw|, IsSpace)
  {
    StripEmpty(raw);
    Lower(Strip(raw))
  }

  /**
    `handle_command`: one turn of session `sid` with the raw command text.
    Only that session's entry of the table can change.
   */
  function HandleCommand(sessions: Sessions, sid: SessionId, raw: string, env: Env): (t: Turn)
    requires WellFormedEnv(env)
    ensures forall other :: other != sid ==> (other in t.sessions <==> other in sessions)
    ensures forall other :: other != sid && other in sessions ==> t.sessions[other] == sessions[other]
  {
    var command := Clean(raw);
    if command == "" then
      Turn(sessions, [Reply(Error, NoCommandText)])
    else if !env.backendReady then
      Turn(sessions, [Reply(Error, BackendText)])
    else if IsCancel(command) && sid in sessions then
      Turn(sessions - {sid}, [Reply(Info, CancelText)])
    else if sid in sessions && sessions[sid].intent == SendEmail then
      Continue(sessions, sid, command, env.send)
    else
      Fresh(sessions, sid, command, env)
  }

  /** The disconnect handler: drop the session's conversation if there is one. */
  function Disconnect(sessions: Sessions, sid: SessionId): (r: Sessions)
    ensures sid !in r
    ensures forall other :: other != sid ==> (other in r <==> other in sessions)
    ensures forall other :: other != sid && other in sessions ==> r[other] == sessions[other]
    ensures sid !in sessions ==> r == sessions
  {
    if sid in sessions then sessions - {sid} else sessions
  }
}

=== FILE: dialogue_properties.dfy ===
/** Properties of one turn, and of a whole conversation, of the dialogue handler. */
module DialogueProperties {
  import opened Wrappers
  import opened Text
  import opened Intents
  import opened Command
  import opened Dialogue
  import EmailAddress
  import Count

  /** The handler's command is already stripped: stripping it again changes nothing. */
  lemma CleanIsStripped(raw: string)
    ensures Strip(Clean(raw)) == Clean(raw)
  {
    StripNoEdge(Clean(raw));
  }

  /**
    An input that is empty after stripping is answered with an error and
    touches neither the conversation table nor the classifier.
   */
  lemma EmptyCommandRejected(sessions: Sessions, sid: SessionId, raw: string, env: Env)
    requires WellFormedEnv(env)
    requires Strip(raw) == ""
    ensures HandleCommand(sessions, sid, raw, env) == Turn(sessions, [Reply(Error, NoCommandText)])
  {
  }

  /** A cancel utterance closes an open conversation before any other routing. */
  lemma CancelClosesConversation(sessions: Sessions, sid: SessionId, raw: string, env: Env)
    requires WellFormedEnv(env)
    requires Clean(raw) != "" && env.backendReady
    requires IsCancel(Clean(raw)) && sid in sessions
    ensures HandleCommand(sessions, sid, raw, env) == Turn(sessions - {sid}, [Reply(Info, CancelText)])
  {
  }

  /** Without an open conversation a cancel utterance is classified like any other command. */
  lemma CancelWithoutConversation(sessions: Sessions, sid: SessionId, raw: string, env: Env)
    requires WellFormedEnv(env)
    requires Clean(raw) != "" && env.backendReady
    requires sid !in sessions
    ensures HandleCommand(sessions, sid, raw, env) == Fresh(sessions, sid, Clean(raw), env)
  {
  }

  /**
    While a conversation is open the turn is consumed by the dialogue: it is
    not classified again, so the outcome depends only on the dialogue state,
    the command and the send outcome, and nothing is listed.
   */
  lemma OpenConversationNotReclassified(sessions: Sessions, sid: SessionId, raw: string, env: Env)
    requires WellFormedEnv(env)
    requires Clean(raw) != "" && env.backendReady && !IsCancel(Clean(raw))
    requires sid in sessions && sessions[sid].intent == SendEmail
    ensures HandleCommand(sessions, sid, raw, env) == Continue(sessions, sid, Clean(raw), env.send)
    ensures forall e :: e in HandleCommand(sessions, sid, raw, env).events ==> !e.ListCall?
  {
    ContinueNoListing(sessions, sid, Clean(raw), env.send);
  }

  /** A dialogue step never lists mail. */
  lemma ContinueNoListing(sessions: Sessions, sid: SessionId, command: string, outcome: SendOutcome)
    requires sid in sessions
    ensures forall e :: e in Continue(sessions, sid, command, outcome).events ==> !e.ListCall?
  {
    var c := sessions[sid];
    match c.step
    case WaitingForTo =>
    case WaitingForSubject =>
    case WaitingForBody =>
    case NoStep =>
  }


  /** Waiting for the recipient: the first address in the turn (else the whole turn) becomes the recipient. */
  lemma RecipientTurn(sessions: Sessions, sid: SessionId, raw: string, env: Env)
    requires WellFormedEnv(env)
    requires Clean(raw) != "" && env.backendReady && !IsCancel(Clean(raw))
    requires sid in sessions && sessions[sid].intent == SendEmail && sessions[sid].step == WaitingForTo
    ensures var recipient := EmailAddress.Recipient(Clean(raw));
      HandleCommand(sessions, sid, raw, env) ==
        Turn(sessions[sid := sessions[sid].(to := Some(recipient), step := WaitingForSubject)],
             [Reply(Info, AskSubjectText(recipient))])
  {
  }

  /** Waiting for the subject: a non-empty turn fills it and advances; an empty one changes nothing. */
  lemma SubjectTurn(sessions: Sessions, sid: SessionId, command: string, outcome: SendOutcome)
    requires sid in sessions && sessions[sid].step == WaitingForSubject
    ensures Strip(command) != "" ==>
      Continue(sessions, sid, command, outcome) ==
        Turn(sessions[sid := sessions[sid].(subject := Some(Strip(command)), step := WaitingForBody)],
             [Reply(Info, AskBodyText(Strip(command)))])
    ensures Strip(command) == "" ==>
      Continue(sessions, sid, command, outcome) == Turn(sessions, [Reply(Info, SubjectRetryText)])
  {
  }

  /** Waiting for the body: a non-empty turn sends exactly once and closes the conversation, success or failure. */
  lemma BodyTurn(sessions: Sessions, sid: SessionId, command: string, outcome: SendOutcome)
    requires sid in sessions && sessions[sid].step == WaitingForBody
    ensures Strip(command) != "" ==>
      && sid !in Continue(sessions, sid, command, outcome).sessions
      && Continue(sessions, sid, command, outcome).events ==
           [SendCall(sessions[sid].to, sessions[sid].subject, Some(Strip(command))), Reply(Info, SendResultText(outcome))]
    ensures Strip(command) == "" ==>
      Continue(sessions, sid, command, outcome) == Turn(sessions, [Reply(Info, BodyRetryText)])
  {
  }

  /**
    Through the handler the subject step always advances: the handler's
    command is stripped and non-empty, so the empty-subject re-prompt is
    unreachable.
   */
  lemma SubjectTurnAdvances(sessions: Sessions, sid: SessionId, raw: string, env: Env)
    requires WellFormedEnv(env)
    requires Clean(raw) != "" && env.backendReady && !IsCancel(Clean(raw))
    requires sid in sessions && sessions[sid].intent == SendEmail && sessions[sid].step == WaitingForSubject
    ensures HandleCommand(sessions, sid, raw, env) ==
      Turn(sessions[sid := sessions[sid].(subject := Some(Clean(raw)), step := WaitingForBody)],
           [Reply(Info, AskBodyText(Clean(raw)))])
  {
    CleanIsStripped(raw);
    SubjectTurn(sessions, sid, Clean(raw), env.send);
  }

  /**
    Through the handler the body step always sends, exactly once, and closes
    the conversation whatever the send's outcome; the empty-body re-prompt is
    unreachable.
   */
  lemma BodyTurnSends(sessions: Sessions, sid: SessionId, raw: string, env: Env)
    requires WellFormedEnv(env)
    requires Clean(raw) != "" && env.backendReady && !IsCancel(Clean(raw))
    requires sid in sessions && sessions[sid].intent == SendEmail && sessions[sid].step == WaitingForBody
    ensures var t := HandleCommand(sessions, sid, raw, env);
      && sid !in t.sessions
      && t.events == [SendCall(sessions[sid].to, sessions[sid].subject, Some(Clean(raw))), Reply(Info, SendResultText(env.send))]
  {
    CleanIsStripped(raw);
    BodyTurn(sessions, sid, Clean(raw), env.send);
  }

  /**
    A fresh send request opens a conversation at the first missing slot among
    recipient, subject and body, replacing any old one; when none is missing
    the message is sent at once and no conversation remains.
   */
  lemma StartSendFirstMissing(sessions: Sessions, sid: SessionId, to: Option<string>, subject: Option<string>, body: Option<string>, outcome: SendOutcome)
    ensures var t := StartSend(sessions, sid, to, subject, body, outcome);
      && (!Present(to) ==> t.sessions == sessions[sid := ConvState(SendEmail, to, subject, body, WaitingForTo)])
      && (Present(to) && !Present(subject) ==>
            t.sessions == sessions[sid := ConvState(SendEmail, to, subject, body, WaitingForSubject)])
      && (Present(to) && Present(subject) && !Present(body) ==>
            t.sessions == sessions[sid := ConvState(SendEmail, to, subject, body, WaitingForBody)])
      && (Present(to) && Present(subject) && Present(body) ==>
            sid !in t.sessions && t.events == [SendCall(to, subject, body), Reply(Info, SendResultText(outcome))])
  {
  }

  /**
    With no conversation open and no count in the command, a send request
    that names no recipient opens a conversation that asks for one.
   */
  lemma SendWithoutRecipientOpens(sessions: Sessions, sid: SessionId, raw: string, env: Env)
    requires WellFormedEnv(env) && env.backendReady && Clean(raw) != "" && sid !in sessions
    requires Count.RequestedCount(Clean(raw)).None?
    requires var v := ProcessCommand(Clean(raw), env.nlp); v.SendRequest? && !Present(v.to)
    ensures var v := ProcessCommand(Clean(raw), env.nlp);
      HandleCommand(sessions, sid, raw, env) ==
        Turn(sessions[sid := ConvState(SendEmail, v.to, v.subject, v.body, WaitingForTo)], [Reply(Info, AskRecipientText)])
  {
    CancelWithoutConversation(sessions, sid, raw, env);
    FreshOpens(sessions, sid, Clean(raw), env);
  }

  lemma FreshOpens(sessions: Sessions, sid: SessionId, command: string, env: Env)
    requires WellFormedEnv(env) && Count.RequestedCount(command).None?
    requires var v := ProcessCommand(command, env.nlp); v.SendRequest? && !Present(v.to)
    ensures var v := ProcessCommand(command, env.nlp);
      Fresh(sessions, sid, command, env) ==
        Turn(sessions[sid := ConvState(SendEmail, v.to, v.subject, v.body, WaitingForTo)], [Reply(Info, AskRecipientText)])
  {
    var v := ProcessCommand(command, env.nlp);
    RouteOpens(sessions, sid, v, env);
    assert CountNotices(command) == [];
  }

  lemma RouteOpens(sessions: Sessions, sid: SessionId, v: NlpResult, env: Env)
    requires v.SendRequest? && !Present(v.to)
    ensures Route(sessions, sid, v, None, env) ==
      Turn(sessions[sid := ConvState(SendEmail, v.to, v.subject, v.body, WaitingForTo)], [Reply(Info, AskRecipientText)])
  {
  }

  /** The number of send calls among the events. */
  function SendCalls(events: seq<Event>): nat {
    if |events| == 0 then 0
    else (if events[0].SendCall? then 1 else 0) + SendCalls(events[1..])
  }

  lemma {:induction false} SendCallsAppend(a: seq<Event>, b: seq<Event>)
    ensures SendCalls(a + b) == SendCalls(a) + SendCalls(b)
    decreases |a|
  {
    if |a| == 0 {
      assert a + b == b;
    } else {
      assert (a + b)[1..] == a[1..] + b;
      SendCallsAppend(a[1..], b);
    }
  }

  lemma {:induction false} ZeroSendCalls(events: seq<Event>)
    ensures SendCalls(events) == 0 <==> forall e :: e in events ==> !e.SendCall?
    decreases |events|
  {
    if |events| > 0 {
      ZeroSendCalls(events[1..]);
      assert forall e :: e in events ==> e == events[0] || e in events[1..];
    }
  }

  /** No send call after the first event. */
  predicate SendsOnceFirst(events: seq<Event>) {
    forall i :: 0 < i < |events| ==> !events[i].SendCall?
  }

  lemma SendsOnceFirstCount(events: seq<Event>)
    requires SendsOnceFirst(events)
    ensures SendCalls(events) <= 1
  {
    if |events| > 0 {
      ZeroSendCalls(events[1..]);
    }
  }

  lemma RouteSendsAtMostOnce(sessions: Sessions, sid: SessionId, verdict: NlpResult, explicit: Option<nat>, env: Env)
    ensures SendCalls(Route(sessions, sid, verdict, explicit, env).events) <= 1
  {
    SendsOnceFirstCount(Route(sessions, sid, verdict, explicit, env).events);
  }

  lemma ContinueSendsAtMostOnce(sessions: Sessions, sid: SessionId, command: string, outcome: SendOutcome)
    requires sid in sessions
    ensures SendCalls(Continue(sessions, sid, command, outcome).events) <= 1
  {
    SendsOnceFirstCount(Continue(sessions, sid, command, outcome).events);
  }

  /** One turn makes at most one send call. */
  lemma AtMostOneSend(sessions: Sessions, sid: SessionId, raw: string, env: Env)
    requires WellFormedEnv(env)
    ensures SendCalls(HandleCommand(sessions, sid, raw, env).events) <= 1
  {
    var command := Clean(raw);
    if command == "" || !env.backendReady || (IsCancel(command) && sid in sessions) {
    } else if sid in sessions && sessions[sid].intent == SendEmail {
      ContinueSendsAtMostOnce(sessions, sid, command, env.send);
    } else {
      var t := Route(sessions, sid, ProcessCommand(command, env.nlp), Count.ExplicitCount(command), env);
      RouteSendsAtMostOnce(sessions, sid, ProcessCommand(command, env.nlp), Count.ExplicitCount(command), env);
      SendCallsAppend(CountNotices(command), t.events);
      ZeroSendCalls(CountNotices(command));
    }
  }

  lemma ContinueKeepsValid(sessions: Sessions, sid: SessionId, command: string, outcome: SendOutcome)
    requires sid in sessions && Valid(sessions)
    ensures Valid(Continue(sessions, sid, command, outcome).sessions)
  {
    var t := Continue(sessions, sid, command, outcome);
    forall other | other in t.sessions ensures ValidState(t.sessions[other]) {
    }
  }

  lemma RouteKeepsValid(sessions: Sessions, sid: SessionId, verdict: NlpResult, explicit: Option<nat>, env: Env)
    requires Valid(sessions)
    ensures Valid(Route(sessions, sid, verdict, explicit, env).sessions)
  {
    var t := Route(sessions, sid, verdict, explicit, env);
    forall other | other in t.sessions ensures ValidState(t.sessions[other]) {
    }
  }

  /** The conversation table invariant holds after every turn. */
  lemma HandleCommandKeepsValid(sessions: Sessions, sid: SessionId, raw: string, env: Env)
    requires WellFormedEnv(env) && Valid(sessions)
    ensures Valid(HandleCommand(sessions, sid, raw, env).sessions)
  {
    var command := Clean(raw);
    if command == "" || !env.backendReady {
    } else if IsCancel(command) && sid in sessions {
    } else if sid in sessions && sessions[sid].intent == SendEmail {
      ContinueKeepsValid(sessions, sid, command, env.send);
    } else {
      RouteKeepsValid(sessions, sid, ProcessCommand(command, env.nlp), Count.ExplicitCount(command), env);
    }
  }

  /** Every send call among the events carries a non-empty recipient, subject and body. */
  predicate CompleteSends(events: seq<Event>) {
    forall e :: e in events && e.SendCall? ==> Present(e.to) && Present(e.subject) && Present(e.body)
  }

  lemma CompleteSendsAppend(a: seq<Event>, b: seq<Event>)
    requires CompleteSends(b)
    requires forall e :: e in a ==> e.Reply?
    ensures CompleteSends(a + b)
  {
    assert forall e :: e in a + b ==> e in a || e in b;
  }

  lemma ContinueCompleteSends(sessions: Sessions, sid: SessionId, command: string, outcome: SendOutcome)
    requires sid in sessions && ValidState(sessions[sid])
    ensures CompleteSends(Continue(sessions, sid, command, outcome).events)
  {
  }

  lemma RouteCompleteSends(sessions: Sessions, sid: SessionId, verdict: NlpResult, explicit: Option<nat>, env: Env)
    ensures CompleteSends(Route(sessions, sid, verdict, explicit, env).events)
  {
  }

  /** With the invariant, every send call carries a non-empty recipient, subject and body. */
  lemma SendsAreComplete(sessions: Sessions, sid: SessionId, raw: string, env: Env)
    requires WellFormedEnv(env) && Valid(sessions)
    ensures CompleteSends(HandleCommand(sessions, sid, raw, env).events)
  {
    var command := Clean(raw);
    if command == "" || !env.backendReady || (IsCancel(command) && sid in sessions) {
      assert |HandleCommand(sessions, sid, raw, env).events| == 1;
      assert HandleCommand(sessions, sid, raw, env).events[0].Reply?;
    } else if sid in sessions && sessions[sid].intent == SendEmail {
      ContinueCompleteSends(sessions, sid, command, env.send);
      assert HandleCommand(sessions, sid, raw, env) == Continue(sessions, sid, command, env.send);
    } else {
      var t := Route(sessions, sid, ProcessCommand(command, env.nlp), Count.ExplicitCount(command), env);
      RouteCompleteSends(sessions, sid, ProcessCommand(command, env.nlp), Count.ExplicitCount(command), env);
      CountNoticeShape(command);
      CompleteSendsAppend(CountNotices(command), t.events);
      assert HandleCommand(sessions, sid, raw, env).events == CountNotices(command) + t.events;
    }
  }


  /** The count notice: one informational reply exactly when a requested count was adjusted. */
  lemma CountNoticeShape(command: string)
    ensures var requested := Count.RequestedCount(command);
      |CountNotices(command)| == (if requested.Some? && Count.Clamp(requested.value) != requested.value then 1 else 0)
    ensures forall e :: e in CountNotices(command) ==> e.Reply? && e.kind == Info
  {
    NoticeShape(Count.RequestedCount(command));
  }

  lemma NoticeShape(requested: Option<nat>)
    ensures |NoticesFor(requested)| == (if requested.Some? && Count.Clamp(requested.value) != requested.value then 1 else 0)
    ensures forall e :: e in NoticesFor(requested) ==> e.Reply? && e.kind == Info
  {
    match requested
    case None =>
    case Some(n) =>
      assert Count.ClampNotice(n).Some? <==> Count.Clamp(n) != n;
  }

  /**
    A READ or SEARCH lists, right after any count notice, with the clamped
    requested count, or with the backend's default when no count was given;
    the conversation table is untouched.
   */
  lemma CountedListing(sessions: Sessions, sid: SessionId, command: string, env: Env)
    requires WellFormedEnv(env)
    requires ProcessCommand(command, env.nlp).ReadRequest? || ProcessCommand(command, env.nlp).SearchRequest?
    ensures var t := Fresh(sessions, sid, command, env);
      var requested := Count.RequestedCount(command);
      var size := if requested.Some? then Count.Clamp(requested.value) else DefaultListSize;
      && t.sessions == sessions
      && t.events[|CountNotices(command)|] == ListCall(ProcessCommand(command, env.nlp).query, size)
  {
  }

  /** Disconnecting twice is the same as disconnecting once. */
  lemma DisconnectIdempotent(sessions: Sessions, sid: SessionId)
    ensures Disconnect(Disconnect(sessions, sid), sid) == Disconnect(sessions, sid)
  {
  }
}

=== FILE: email_address.dfy ===
/**
  The recipient search of the `waiting_for_to` step in `app.py`:
  `re.search(r'\b[A-Za-z0-9._%+-]+@[A-Za-z0-9.-]+\.[A-Z|a-z]{2,}\b', command)`.
  Note the top-level-domain class `[A-Z|a-z]` also admits the character `|`.
 */
module EmailAddress {
  import opened Wrappers
  import opened Text

  predicate IsLocalChar(c: char) {
    IsAsciiLetter(c) || IsDigit(c) || c == '.' || c == '_' || c == '%' || c == '+' || c == '-'
  }

  predicate IsDomainChar(c: char) {
    IsAsciiLetter(c) || IsDigit(c) || c == '.' || c == '-'
  }

  predicate IsTldChar(c: char) {
    IsAsciiLetter(c) || c == '|'
  }

  /** `\b` at position `p`: a word character on exactly one side. */
  predicate Boundary(s: string, p: nat) {
    p <= |s| && ((0 < p && IsWordChar(s[p - 1])) != (p < |s| && IsWordChar(s[p])))
  }

  /** Positions of a match: start, the `@`, the dot before the top-level domain, and the end. */
  datatype AddressMatch = AddressMatch(start: nat, at: nat, dot: nat, end: nat)

  /** `m` describes one way the address pattern matches `s`. */
  predicate IsAddressMatch(s: string, m: AddressMatch) {
    && m.start < m.at && m.at + 1 < m.dot && m.dot + 2 < m.end <= |s|
    && Boundary(s, m.start)
    && AllIn(s, m.start, m.at, IsLocalChar) && s[m.at] == '@'
    && AllIn(s, m.at + 1, m.dot, IsDomainChar) && s[m.dot] == '.'
    && AllIn(s, m.dot + 1, m.end, IsTldChar)
    && Boundary(s, m.end)
  }

  /**
    `a` is tried no later than `b`: leftmost start first, then the longer
    greedy domain (a later dot), then the longer greedy top-level domain.
   */
  predicate Preferred(a: AddressMatch, b: AddressMatch) {
    || a.start < b.start
    || (a.start == b.start && a.dot > b.dot)
    || (a.start == b.start && a.dot == b.dot && a.end >= b.end)
  }

  /** The longest top-level domain after the dot at `dot` that ends on a word boundary. */
  function TldEnd(s: string, dot: nat): (r: Option<nat>)
    requires dot < |s|
    ensures r.Some? ==> dot + 2 < r.value <= |s| && AllIn(s, dot + 1, r.value, IsTldChar) && Boundary(s, r.value)
    ensures forall e :: dot + 2 < e <= |s| && AllIn(s, dot + 1, e, IsTldChar) && Boundary(s, e) ==>
      r.Some? && e <= r.value
  {
    var t := RunEnd(s, dot + 1, IsTldChar);
    if t < dot + 3 then None
    else
      var b := (e: nat) => Boundary(s, e);
      assert forall e: nat :: b(e) == Boundary(s, e);
      LastFrom(dot + 3, t + 1, b)
  }

  /** The dot the greedy domain stops at, for the `@` at `at`: the last one with a viable top-level domain. */
  function DotFor(s: string, at: nat): (r: Option<nat>)
    requires at < |s|
    ensures r.Some? ==>
      && at + 1 < r.value < |s| && AllIn(s, at + 1, r.value, IsDomainChar)
      && s[r.value] == '.' && TldEnd(s, r.value).Some?
    ensures forall d :: at + 1 < d < |s| && AllIn(s, at + 1, d, IsDomainChar) && s[d] == '.' && TldEnd(s, d).Some? ==>
      r.Some? && d <= r.value
  {
    var q := RunEnd(s, at + 1, IsDomainChar);
    DotsInDomainRun(s, at);
    if q < at + 2 then None
    else
      var viable := (d: nat) => d < |s| && s[d] == '.' && TldEnd(s, d).Some?;
      assert forall d: nat :: d < |s| ==> viable(d) == (s[d] == '.' && TldEnd(s, d).Some?);
      LastFrom(at + 2, q, viable)
  }

  /** A dot the domain part can stop at lies inside the run of domain characters after the `@`. */
  lemma DotsInDomainRun(s: string, at: nat)
    requires at < |s|
    ensures var q := RunEnd(s, at + 1, IsDomainChar);
      forall d :: at + 1 < d < |s| && AllIn(s, at + 1, d, IsDomainChar) && s[d] == '.' ==> d < q
  {
    var q := RunEnd(s, at + 1, IsDomainChar);
    forall d | at + 1 < d < |s| && AllIn(s, at + 1, d, IsDomainChar) && s[d] == '.' ensures d < q {
      assert forall k :: at + 1 <= k <= d ==> IsDomainChar(s[k]);
    }
  }

  /** The match the engine finds when it starts at `i`, if any. */
  function MatchAt(s: string, i: nat): (r: Option<AddressMatch>)
    ensures r.Some? ==> IsAddressMatch(s, r.value) && r.value.start == i
  {
    if i < |s| && Boundary(s, i) && IsLocalChar(s[i]) then
      var at := RunEnd(s, i, IsLocalChar);
      if at < |s| && s[at] == '@' then
        match DotFor(s, at)
        case Some(d) => Some(AddressMatch(i, at, d, TldEnd(s, d).value))
        case None => None
      else None
    else None
  }

  /** Whenever the pattern can match from a position, the engine finds a match there preferred to it. */
  lemma MatchAtComplete(s: string, m: AddressMatch)
    requires IsAddressMatch(s, m)
    ensures MatchAt(s, m.start).Some? && Preferred(MatchAt(s, m.start).value, m)
  {
    var i := m.start;
    var at := RunEnd(s, i, IsLocalChar);
    assert IsLocalChar(s[i]);
    assert !IsLocalChar(s[m.at]);
    assert at == m.at;
    var q := RunEnd(s, at + 1, IsDomainChar);
    assert IsDomainChar(s[m.dot]);
    assert TldEnd(s, m.dot).Some?;
    var d := DotFor(s, at).value;
    assert m.dot <= d;
  }

  lemma AllMatchesComplete(s: string)
    ensures forall m :: IsAddressMatch(s, m) ==> MatchAt(s, m.start).Some? && Preferred(MatchAt(s, m.start).value, m)
  {
    forall m | IsAddressMatch(s, m) ensures MatchAt(s, m.start).Some? && Preferred(MatchAt(s, m.start).value, m) {
      MatchAtComplete(s, m);
    }
  }

  /** The engine's match at the leftmost position where it finds one is preferred to every match. */
  lemma FirstMatchPreferred(s: string, i: nat)
    requires MatchAt(s, i).Some?
    requires forall j :: 0 <= j < i ==> MatchAt(s, j).None?
    ensures forall m :: IsAddressMatch(s, m) ==> Preferred(MatchAt(s, i).value, m)
  {
    AllMatchesComplete(s);
  }

  /** `re.search` for the address pattern. */
  function FindAddress(s: string): (r: Option<AddressMatch>)
    ensures r.Some? ==> IsAddressMatch(s, r.value)
    ensures r.Some? ==> forall m :: IsAddressMatch(s, m) ==> Preferred(r.value, m)
    ensures r.None? ==> forall m :: !IsAddressMatch(s, m)
  {
    var found := (i: nat) => MatchAt(s, i).Some?;
    assert forall i: nat :: found(i) == MatchAt(s, i).Some?;
    var first := FirstFrom(0, |s|, found);
    if first.None? then
      AllMatchesComplete(s);
      None
    else
      FirstMatchPreferred(s, first.value);
      MatchAt(s, first.value)
  }

  /**
    The recipient taken from a `waiting_for_to` turn: the first address-shaped
    match (`match.group(0)`), else the whole command.
   */
  function Recipient(command: string): (r: string)
    ensures |command| > 0 ==> |r| > 0
    ensures (forall m :: !IsAddressMatch(command, m)) ==> r == command
    ensures (exists m :: IsAddressMatch(command, m)) ==>
      exists m :: IsAddressMatch(command, m) && (forall m' :: IsAddressMatch(command, m') ==> Preferred(m, m'))
        && r == command[m.start..m.end]
  {
    match FindAddress(command)
    case Some(m) => command[m.start..m.end]
    case None => command
  }
}

=== FILE: extract.dfy ===
/**
  The slot extractors of `app/nlp_processor.py`: `extract_sender`,
  `extract_subject` and `extract_content`. Each is one `re.search` with
  `re.IGNORECASE` followed by `.group(n).strip()`.

  A regular-expression search is specified declaratively: a predicate says
  which positions describe SOME way the pattern matches, and `Preferred` is the
  order in which Python's backtracking engine tries them (leftmost start, then
  the earlier alternative, then the longer greedy `\s+`, then the longer greedy
  group). The search returns the match that is preferred to every other.
 */
module Extract {
  import opened Wrappers
  import opened Text

  /**
    Positions of a match of `keyword\s+(group)`: where it starts, which
    alternative of the keyword group matched, where the keyword ends and the
    bounds of the captured group.
   */
  datatype Match = Match(start: nat, alt: nat, keyEnd: nat, groupStart: nat, groupEnd: nat)

  /** `a` is tried no later than `b` by a leftmost, backtracking, greedy search. */
  predicate Preferred(a: Match, b: Match) {
    || a.start < b.start
    || (a.start == b.start && a.alt < b.alt)
    || (a.start == b.start && a.alt == b.alt && a.groupStart > b.groupStart)
    || (a.start == b.start && a.alt == b.alt && a.groupStart == b.groupStart && a.groupEnd >= b.groupEnd)
  }

  /** The keyword `kw` (any ASCII case) at `i`, followed by a whitespace character. */
  predicate KeywordSpaceAt(s: string, i: nat, kw: string) {
    KeywordAt(s, i, kw) && i + |kw| < |s| && IsSpace(s[i + |kw|])
  }

  // ---------------------------------------------------------------------
  // extract_sender: `from\s+([^\s]+)`
  // ---------------------------------------------------------------------

  const SenderKeyword := "from"

  /** `m` describes one way `from\s+([^\s]+)` matches `s`. */
  predicate SenderMatch(s: string, m: Match) {
    && m.alt == 0
    && KeywordAt(s, m.start, SenderKeyword)
    && m.keyEnd == m.start + |SenderKeyword|
    && m.keyEnd < m.groupStart < m.groupEnd <= |s|
    && AllIn(s, m.keyEnd, m.groupStart, IsSpace)
    && AllIn(s, m.groupStart, m.groupEnd, NotSpace)
  }

  /** `m` is the match `re.search` reports: a match preferred to every other. */
  ghost predicate IsFirstSenderMatch(s: string, m: Match) {
    SenderMatch(s, m) && forall m' :: SenderMatch(s, m') ==> Preferred(m, m')
  }

  /** Some match of the sender pattern starts at `i`. */
  predicate SenderAt(s: string, i: nat) {
    && KeywordSpaceAt(s, i, SenderKeyword)
    && RunEnd(s, i + |SenderKeyword|, IsSpace) < |s|
  }

  /** Every match starts at a `SenderAt` position and is bounded by the greedy runs there. */
  lemma SenderMatchBounds(s: string)
    ensures forall m :: SenderMatch(s, m) ==>
      && SenderAt(s, m.start)
      && m.groupStart <= RunEnd(s, m.keyEnd, IsSpace)
      && (m.groupStart == RunEnd(s, m.keyEnd, IsSpace) ==> m.groupEnd <= RunEnd(s, m.groupStart, NotSpace))
  {
    forall m | SenderMatch(s, m)
      ensures SenderAt(s, m.start)
      ensures m.groupStart <= RunEnd(s, m.keyEnd, IsSpace)
      ensures m.groupStart == RunEnd(s, m.keyEnd, IsSpace) ==> m.groupEnd <= RunEnd(s, m.groupStart, NotSpace)
    {
      assert IsSpace(s[m.keyEnd]);
      assert NotSpace(s[m.groupStart]);
      var g0 := RunEnd(s, m.keyEnd, IsSpace);
      assert g0 <= m.groupStart;
      if m.groupStart == g0 {
        assert AllIn(s, g0, m.groupEnd, NotSpace);
      }
    }
  }

  /** `re.search(r'from\s+([^\s]+)', s, re.IGNORECASE)`. */
  function SearchSender(s: string): (r: Option<Match>)
    ensures r.Some? ==> IsFirstSenderMatch(s, r.value)
    ensures r.None? ==> forall m :: !SenderMatch(s, m)
  {
    SenderMatchBounds(s);
    var at := (i: nat) => SenderAt(s, i);
    assert forall i: nat :: at(i) == SenderAt(s, i);
    var first := FirstFrom(0, |s| + 1, at);
    if first.None? then None
    else
      var i := first.value;
      GreedySenderFirst(s, i);
      var g0 := RunEnd(s, i + |SenderKeyword|, IsSpace);
      Some(Match(i, 0, i + |SenderKeyword|, g0, RunEnd(s, g0, NotSpace)))
  }

  /** The greedy match at the first position where the pattern can match is preferred to every match. */
  lemma GreedySenderFirst(s: string, i: nat)
    requires SenderAt(s, i)
    requires forall j: nat :: j < i ==> !SenderAt(s, j)
    ensures var g0 := RunEnd(s, i + |SenderKeyword|, IsSpace);
      IsFirstSenderMatch(s, Match(i, 0, i + |SenderKeyword|, g0, RunEnd(s, g0, NotSpace)))
  {
    SenderMatchBounds(s);
    var g0 := RunEnd(s, i + |SenderKeyword|, IsSpace);
    assert NotSpace(s[g0]);
    var m0 := Match(i, 0, i + |SenderKeyword|, g0, RunEnd(s, g0, NotSpace));
    assert SenderMatch(s, m0);
    forall m | SenderMatch(s, m) ensures Preferred(m0, m) {
      assert SenderAt(s, m.start);
    }
  }

  /** `extract_sender`: the stripped group of the sender search, or None. */
  function ExtractSender(text: string): (r: Option<string>)
    ensures r.Some? ==> |r.value| > 0 && forall k :: 0 <= k < |r.value| ==> !IsSpace(r.value[k])
  {
    match SearchSender(text)
    case None => None
    case Some(m) =>
      var g := text[m.groupStart..m.groupEnd];
      assert forall k :: 0 <= k < |g| ==> NotSpace(g[k]);
      StripNoEdge(g);
      Some(Strip(g))
  }

  /**
    `extract_sender` returns the run of non-whitespace characters captured
    after the first "from" that is followed by whitespace and then more text,
    and None exactly when the pattern matches nowhere.
   */
  lemma ExtractSenderSpec(text: string)
    ensures ExtractSender(text).None? <==> forall m :: !SenderMatch(text, m)
    ensures ExtractSender(text).Some? ==> exists m ::
      IsFirstSenderMatch(text, m) && ExtractSender(text).value == text[m.groupStart..m.groupEnd]
  {
    if SearchSender(text).Some? {
      var m := SearchSender(text).value;
      assert IsFirstSenderMatch(text, m);
    }
  }

  // ---------------------------------------------------------------------
  // extract_subject / extract_content: `(kw1|kw2|...)\s+(.*)`
  // ---------------------------------------------------------------------

  const SubjectKeywords: seq<string> := ["about", "regarding", "subject"]
  const ContentKeywords: seq<string> := ["saying"]

  /** `m` describes one way `(kws[0]|kws[1]|...)\s+(.*)` matches `s`. */
  predicate TailMatch(s: string, kws: seq<string>, m: Match) {
    && m.alt < |kws|
    && KeywordAt(s, m.start, kws[m.alt])
    && m.keyEnd == m.start + |kws[m.alt]|
    && m.keyEnd < m.groupStart <= m.groupEnd <= |s|
    && AllIn(s, m.keyEnd, m.groupStart, IsSpace)
    && AllIn(s, m.groupStart, m.groupEnd, NotNewline)
  }

  ghost predicate IsFirstTailMatch(s: string, kws: seq<string>, m: Match) {
    TailMatch(s, kws, m) && forall m' :: TailMatch(s, kws, m') ==> Preferred(m, m')
  }

  /** The first alternative that, at `i`, is followed by whitespace. */
  function AltAt(s: string, kws: seq<string>, i: nat): (r: Option<nat>)
    ensures r.Some? ==> r.value < |kws| && KeywordSpaceAt(s, i, kws[r.value])
    ensures r.Some? ==> forall k :: 0 <= k < r.value ==> !KeywordSpaceAt(s, i, kws[k])
    ensures r.None? ==> forall k :: 0 <= k < |kws| ==> !KeywordSpaceAt(s, i, kws[k])
  {
    var matches := (k: nat) => k < |kws| && KeywordSpaceAt(s, i, kws[k]);
    assert forall k: nat :: k < |kws| ==> matches(k) == KeywordSpaceAt(s, i, kws[k]);
    FirstFrom(0, |kws|, matches)
  }

  lemma TailMatchBounds(s: string, kws: seq<string>)
    ensures forall m :: TailMatch(s, kws, m) ==>
      && AltAt(s, kws, m.start).Some?
      && AltAt(s, kws, m.start).value <= m.alt
      && m.groupStart <= RunEnd(s, m.keyEnd, IsSpace)
      && (m.groupStart == RunEnd(s, m.keyEnd, IsSpace) ==> m.groupEnd <= RunEnd(s, m.groupStart, NotNewline))
  {
    forall m | TailMatch(s, kws, m)
      ensures AltAt(s, kws, m.start).Some?
      ensures AltAt(s, kws, m.start).value <= m.alt
      ensures m.groupStart <= RunEnd(s, m.keyEnd, IsSpace)
      ensures m.groupStart == RunEnd(s, m.keyEnd, IsSpace) ==> m.groupEnd <= RunEnd(s, m.groupStart, NotNewline)
    {
      assert IsSpace(s[m.keyEnd]);
      assert KeywordSpaceAt(s, m.start, kws[m.alt]);
      var g0 := RunEnd(s, m.keyEnd, IsSpace);
      assert AllIn(s, m.keyEnd, m.groupStart, IsSpace);
      if m.groupStart == g0 {
        assert AllIn(s, g0, m.groupEnd, NotNewline);
      }
    }
  }

  /** The greedy match of the tail pattern at a position where some alternative applies. */
  function TailMatchAt(s: string, kws: seq<string>, i: nat): (m: Match)
    requires AltAt(s, kws, i).Some?
    ensures TailMatch(s, kws, m) && m.start == i
  {
    var k := AltAt(s, kws, i).value;
    var e := i + |kws[k]|;
    var g0 := RunEnd(s, e, IsSpace);
    Match(i, k, e, g0, RunEnd(s, g0, NotNewline))
  }

  /** At the leftmost applicable position, the greedy match is preferred to every match. */
  lemma TailMatchAtFirst(s: string, kws: seq<string>, i: nat)
    requires AltAt(s, kws, i).Some?
    requires forall j :: 0 <= j < i ==> AltAt(s, kws, j).None?
    ensures IsFirstTailMatch(s, kws, TailMatchAt(s, kws, i))
  {
    TailMatchBounds(s, kws);
  }

  /** `re.search(r'(kws[0]|kws[1]|...)\s+(.*)', s, re.IGNORECASE)`. */
  function SearchTail(s: string, kws: seq<string>): (r: Option<Match>)
    ensures r.Some? ==> IsFirstTailMatch(s, kws, r.value)
    ensures r.None? ==> forall m :: !TailMatch(s, kws, m)
  {
    var at := (i: nat) => AltAt(s, kws, i).Some?;
    assert forall i: nat :: at(i) == AltAt(s, kws, i).Some?;
    var first := FirstFrom(0, |s| + 1, at);
    if first.None? then
      TailMatchBounds(s, kws);
      None
    else
      TailMatchAtFirst(s, kws, first.value);
      Some(TailMatchAt(s, kws, first.value))
  }

  /**
    A captured tail, once stripped, never crosses a line break and never has
    whitespace at its ends.
   */
  lemma StrippedGroupShape(text: string, kws: seq<string>, m: Match)
    requires TailMatch(text, kws, m)
    ensures var v := Strip(text[m.groupStart..m.groupEnd]);
      NoEdgeSpace(v) && forall k :: 0 <= k < |v| ==> v[k] != '\n'
  {
    var g := text[m.groupStart..m.groupEnd];
    assert AllIn(text, m.groupStart, m.groupEnd, NotNewline);
    assert forall j :: 0 <= j < |g| ==> g[j] != '\n';
    var v := Strip(g);
    var a: nat :| TrimAt(v, g, a);
    assert forall k :: 0 <= k < |v| ==> v[k] == g[a + k];
  }

  /** The stripped captured group of the preferred tail match, or None. */
  function ExtractTail(text: string, kws: seq<string>): (r: Option<string>)
    ensures r.Some? ==> NoEdgeSpace(r.value) && forall k :: 0 <= k < |r.value| ==> r.value[k] != '\n'
  {
    match SearchTail(text, kws)
    case None => None
    case Some(m) =>
      StrippedGroupShape(text, kws, m);
      Some(Strip(text[m.groupStart..m.groupEnd]))
  }

  /**
    The tail extractor returns the stripped rest of the line after the first
    keyword (earliest alternative at that position) followed by whitespace,
    and None exactly when the pattern matches nowhere.
   */
  lemma ExtractTailSpec(text: string, kws: seq<string>)
    ensures ExtractTail(text, kws).None? <==> forall m :: !TailMatch(text, kws, m)
    ensures ExtractTail(text, kws).Some? ==> exists m ::
      IsFirstTailMatch(text, kws, m) && ExtractTail(text, kws).value == Strip(text[m.groupStart..m.groupEnd])
  {
    if SearchTail(text, kws).Some? {
      var m := SearchTail(text, kws).value;
      assert IsFirstTailMatch(text, kws, m);
    }
  }

  /**
    `extract_subject`: the stripped rest of the line after the first "about",
    "regarding" or "subject" followed by whitespace, or None when there is none.
   */
  function ExtractSubject(text: string): (r: Option<string>)
    ensures r.None? <==> forall m :: !TailMatch(text, SubjectKeywords, m)
    ensures r.Some? ==> exists m ::
      IsFirstTailMatch(text, SubjectKeywords, m) && r.value == Strip(text[m.groupStart..m.groupEnd])
  {
    ExtractTailSpec(text, SubjectKeywords);
    ExtractTail(text, SubjectKeywords)
  }

  /**
    `extract_content`: the stripped rest of the line after the first "saying"
    followed by whitespace, or None when there is none.
   */
  function ExtractContent(text: string): (r: Option<string>)
    ensures r.None? <==> forall m :: !TailMatch(text, ContentKeywords, m)
    ensures r.Some? ==> exists m ::
      IsFirstTailMatch(text, ContentKeywords, m) && r.value == Strip(text[m.groupStart..m.groupEnd])
  {
    ExtractTailSpec(text, ContentKeywords);
    ExtractTail(text, ContentKeywords)
  }
}

=== FILE: extract_example.dfy ===
/**
  A worked example of the slot extractors on one concrete request: where
  each pattern matches and what it captures.
 */
module ExtractExample {
  import opened Wrappers
  import opened Text
  import opened Extract

  const Request := "send email about lunch saying hi"

  /**
    A character that matches a lower-case keyword letter only as itself: not
    an upper-case ASCII letter, and not long s or dotless i.
   */
  predicate PlainChar(c: char) {
    !('A' <= c <= 'Z') && c != LongS && c != DotlessI
  }

  predicate Plain(s: string) {
    forall k :: 0 <= k < |s| ==> PlainChar(s[k])
  }

  /** No position before `p` holds the two letters `x` then `y`. */
  predicate NoPairBefore(s: string, p: nat, x: char, y: char) {
    forall i :: 0 <= i < p && i + 1 < |s| ==> !PairAt(s, i, x, y)
  }

  predicate PairAt(s: string, i: nat, x: char, y: char)
    requires i + 1 < |s|
  {
    s[i] == x && s[i + 1] == y
  }

  lemma RequestPlain()
    ensures Plain(Request)
  {
    var a, b, c := "send email ", "about lunch ", "saying hi";
    LettersArePlain(a);
    LettersArePlain(b);
    LettersArePlain(c);
    PlainAppend(a, b);
    PlainAppend(a + b, c);
    assert Request == a + b + c;
  }

  /** Lower-case ASCII letters and spaces are plain. */
  lemma LettersArePlain(s: string)
    requires forall k :: 0 <= k < |s| ==> 'a' <= s[k] <= 'z' || s[k] == ' '
    ensures Plain(s)
  {
  }

  lemma PlainAppend(x: string, y: string)
    requires Plain(x) && Plain(y)
    ensures Plain(x + y)
  {
    forall k | 0 <= k < |x + y| ensures PlainChar((x + y)[k]) {
      if k < |x| {
        assert (x + y)[k] == x[k];
      } else {
        assert (x + y)[k] == y[k - |x|];
      }
    }
  }

  /** A property of every character of two texts holds of every character of their concatenation. */
  lemma AllAppend(x: string, y: string, p: char -> bool)
    requires AllIn(x, 0, |x|, p) && AllIn(y, 0, |y|, p)
    ensures AllIn(x + y, 0, |x + y|, p)
  {
    forall k | 0 <= k < |x + y| ensures p((x + y)[k]) {
      if k < |x| {
        assert (x + y)[k] == x[k];
      } else {
        assert (x + y)[k] == y[k - |x|];
      }
    }
  }

  /** None of the subject keywords starts before position 11. */
  lemma RequestSubjectPairs()
    ensures NoPairBefore(Request, 11, 'a', 'b')
    ensures NoPairBefore(Request, 11, 'r', 'e')
    ensures NoPairBefore(Request, 11, 's', 'u')
  {
    var a := "send email a";
    assert Request[..12] == a;
  }

  /** "saying" does not start before position 23. */
  lemma RequestContentPairs()
    ensures NoPairBefore(Request, 23, 's', 'a')
  {
    var a := "send email about lunch s";
    assert Request[..24] == a;
  }

  /** With no upper-case letter, a keyword occurrence is its first two letters literally. */
  lemma KeywordLetters(s: string, i: nat, kw: string)
    requires Plain(s) && |kw| >= 2 && KeywordAt(s, i, kw)
    ensures i + 1 < |s| && s[i] == kw[0] && s[i + 1] == kw[1]
  {
    assert MatchesIgnoringCase(s[i], kw[0]) && MatchesIgnoringCase(s[i + 1], kw[1]);
  }

  /** Two tail matches each preferred to the other are the same match. */
  lemma PreferredBothWays(s: string, kws: seq<string>, m: Match, m': Match)
    requires TailMatch(s, kws, m) && TailMatch(s, kws, m')
    requires Preferred(m, m') && Preferred(m', m)
    ensures m == m'
  {
  }

  /**
    A tail match is preferred to every other when no keyword occurs earlier,
    no earlier alternative occurs at the same place, exactly one whitespace
    follows the keyword and the group reaches the end of the text.
   */
  lemma TailMatchIsFirst(s: string, kws: seq<string>, m0: Match)
    requires TailMatch(s, kws, m0)
    requires forall i: nat, a :: i < m0.start && 0 <= a < |kws| ==> !KeywordAt(s, i, kws[a])
    requires forall a :: 0 <= a < m0.alt ==> !KeywordAt(s, m0.start, kws[a])
    requires m0.groupStart == m0.keyEnd + 1 && m0.groupEnd == |s|
    requires m0.groupStart < |s| ==> !IsSpace(s[m0.groupStart])
    ensures IsFirstTailMatch(s, kws, m0)
  {
    forall m | TailMatch(s, kws, m) ensures Preferred(m0, m) {
      assert m0.start <= m.start;
      if m.start == m0.start && m.alt == m0.alt {
        assert m.keyEnd == m0.keyEnd;
        assert m0.groupStart < |s| ==> !IsSpace(s[m0.groupStart]);
        assert m.groupStart == m0.groupStart;
      }
    }
  }

  /**
    The extracted tail when a match of the pattern is known, no keyword's
    first two letters occur before it, and no earlier alternative occurs at
    the same place.
   */
  lemma TailFromMatch(s: string, kws: seq<string>, m0: Match)
    requires Plain(s) && TailMatch(s, kws, m0)
    requires forall a :: 0 <= a < |kws| ==> |kws[a]| >= 2 && NoPairBefore(s, m0.start, kws[a][0], kws[a][1])
    requires forall a :: 0 <= a < m0.alt ==> !KeywordAt(s, m0.start, kws[a])
    requires m0.groupStart == m0.keyEnd + 1 && m0.groupEnd == |s|
    requires m0.groupStart < |s| ==> !IsSpace(s[m0.groupStart])
    ensures ExtractTail(s, kws) == Some(Strip(s[m0.groupStart..m0.groupEnd]))
  {
    NoEarlierKeyword(s, kws, m0.start);
    TailMatchIsFirst(s, kws, m0);
    ExtractFirstTail(s, kws, m0);
  }

  /** As `TailFromMatch`, with the rest of the line known and already stripped. */
  lemma KnownTail(s: string, kws: seq<string>, m0: Match, v: string)
    requires Plain(s) && TailMatch(s, kws, m0)
    requires forall a :: 0 <= a < |kws| ==> |kws[a]| >= 2 && NoPairBefore(s, m0.start, kws[a][0], kws[a][1])
    requires forall a :: 0 <= a < m0.alt ==> !KeywordAt(s, m0.start, kws[a])
    requires m0.groupStart == m0.keyEnd + 1 && m0.groupEnd == |s|
    requires s[m0.groupStart..m0.groupEnd] == v && NoEdgeSpace(v)
    ensures ExtractTail(s, kws) == Some(v)
  {
    if m0.groupStart < |s| {
      assert s[m0.groupStart] == v[0];
    }
    TailFromMatch(s, kws, m0);
    StripNoEdge(v);
  }

  /** The extractor returns the stripped group of the first match. */
  lemma ExtractFirstTail(s: string, kws: seq<string>, m0: Match)
    requires IsFirstTailMatch(s, kws, m0)
    ensures ExtractTail(s, kws) == Some(Strip(s[m0.groupStart..m0.groupEnd]))
  {
    ExtractTailSpec(s, kws);
    var m :| IsFirstTailMatch(s, kws, m) && ExtractTail(s, kws).value == Strip(s[m.groupStart..m.groupEnd]);
    PreferredBothWays(s, kws, m, m0);
  }

  lemma NoEarlierKeyword(s: string, kws: seq<string>, p: nat)
    requires Plain(s)
    requires forall a :: 0 <= a < |kws| ==> |kws[a]| >= 2 && NoPairBefore(s, p, kws[a][0], kws[a][1])
    ensures forall i: nat, a :: i < p && 0 <= a < |kws| ==> !KeywordAt(s, i, kws[a])
  {
    forall i: nat, a | i < p && 0 <= a < |kws| ensures !KeywordAt(s, i, kws[a]) {
      if i + 1 < |s| {
        assert !PairAt(s, i, kws[a][0], kws[a][1]);
      }
      if KeywordAt(s, i, kws[a]) {
        KeywordLetters(s, i, kws[a]);
      }
    }
  }

  /** Without an "f", no sender is extracted. */
  lemma NoSenderWithoutF(s: string)
    requires Plain(s)
    requires forall k :: 0 <= k < |s| ==> s[k] != 'f'
    ensures ExtractSender(s) == None
  {
    forall i: nat ensures !KeywordAt(s, i, SenderKeyword) {
      if KeywordAt(s, i, SenderKeyword) {
        KeywordLetters(s, i, SenderKeyword);
      }
    }
    ExtractSenderSpec(s);
  }

  lemma RequestTail(start: nat)
    requires start <= |Request|
    ensures AllIn(Request, start, |Request|, NotNewline)
  {
    var a, b, c := "send email ", "about lunch ", "saying hi";
    assert AllIn(a, 0, |a|, NotNewline) && AllIn(b, 0, |b|, NotNewline) && AllIn(c, 0, |c|, NotNewline);
    AllAppend(a, b, NotNewline);
    AllAppend(a + b, c, NotNewline);
    assert Request == a + b + c;
  }

  /** The parts of a text written as three pieces. */
  lemma Pieces(a: string, b: string, c: string)
    ensures (a + b + c)[|a|..|a| + |b|] == b
    ensures (a + b + c)[|a| + |b|..] == c
  {
    assert (a + b + c)[|a| + |b|..] == c;
  }

  lemma SubjectTail()
    ensures Request[17..|Request|] == "lunch saying hi" && NoEdgeSpace("lunch saying hi")
  {
    var a, b := "send email about ", "lunch saying hi";
    assert Request == a + b + "";
    Pieces(a, b, "");
  }

  lemma ContentTail()
    ensures Request[30..|Request|] == "hi" && NoEdgeSpace("hi")
  {
    var a, b := "send email about lunch saying ", "hi";
    assert Request == a + b + "";
    Pieces(a, b, "");
  }

  /** A lower-case keyword written literally at `i` is a keyword occurrence. */
  lemma LiteralKeyword(s: string, i: nat, kw: string)
    requires i + |kw| <= |s| && s[i..i + |kw|] == kw && Plain(kw)
    ensures KeywordAt(s, i, kw)
  {
    forall k | 0 <= k < |kw| ensures MatchesIgnoringCase(s[i + k], kw[k]) {
      assert s[i + k] == s[i..i + |kw|][k];
    }
  }

  /** "about" at 11, one space, and the rest of the line. */
  lemma SubjectMatch()
    ensures TailMatch(Request, SubjectKeywords, Match(11, 0, 16, 17, |Request|))
  {
    var a, b, c := "send email ", "about", " lunch saying hi";
    assert Request == a + b + c;
    Pieces(a, b, c);
    assert Plain(b);
    LiteralKeyword(Request, 11, b);
    assert Request[16] == c[0];
    RequestTail(17);
  }

  lemma SubjectKeywordsAbsentBefore()
    ensures forall a :: 0 <= a < |SubjectKeywords| ==>
      |SubjectKeywords[a]| >= 2 && NoPairBefore(Request, 11, SubjectKeywords[a][0], SubjectKeywords[a][1])
  {
    RequestSubjectPairs();
  }

  /**
    The subject pattern's group runs to the end of the line: the subject of
    this request swallows its "saying" clause.
   */
  lemma SubjectExample(request: string)
    requires request == Request
    ensures ExtractSubject(request) == Some("lunch saying hi")
  {
    RequestPlain();
    SubjectMatch();
    SubjectKeywordsAbsentBefore();
    SubjectTail();
    KnownTail(request, SubjectKeywords, Match(11, 0, 16, 17, |request|), "lunch saying hi");
  }

  /** "saying" at 23, one space, and the rest of the line. */
  lemma ContentMatch()
    ensures TailMatch(Request, ContentKeywords, Match(23, 0, 29, 30, |Request|))
  {
    var a, b, c := "send email about lunch ", "saying", " hi";
    assert Request == a + b + c;
    Pieces(a, b, c);
    assert Plain(b);
    LiteralKeyword(Request, 23, b);
    assert Request[29] == c[0];
    RequestTail(30);
  }

  /** The body is the tail after "saying". */
  lemma ContentExample(request: string)
    requires request == Request
    ensures ExtractContent(request) == Some("hi")
  {
    RequestPlain();
    RequestContentPairs();
    ContentMatch();
    ContentTail();
    KnownTail(request, ContentKeywords, Match(23, 0, 29, 30, |request|), "hi");
  }

  /** No "from" in the request, so no sender is extracted. */
  lemma SenderExample(request: string)
    requires request == Request
    ensures ExtractSender(request) == None
  {
    RequestPlain();
    RequestNoF();
    NoSenderWithoutF(request);
  }

  lemma RequestNoF()
    ensures forall k :: 0 <= k < |Request| ==> Request[k] != 'f'
  {
    var a, b, c := "send email ", "about lunch ", "saying hi";
    assert Request == a + b + c;
  }

  /** "saying hi" spelt with a long s: Python's case-insensitive match still finds "saying". */
  const LongSRequest := [LongS] + "aying hi"

  /** The body of that text is "hi", although it does not contain the letters "saying". */
  lemma LongSContent()
    ensures ExtractContent(LongSRequest) == Some("hi")
  {
    var s := LongSRequest;
    assert s[1..6] == "aying" && s[7..9] == "hi";
    var m0 := Match(0, 0, 6, 7, 9);
    assert KeywordAt(s, 0, ContentKeywords[0]);
    assert TailMatch(s, ContentKeywords, m0);
    TailMatchIsFirst(s, ContentKeywords, m0);
    ExtractFirstTail(s, ContentKeywords, m0);
    StripNoEdge("hi");
  }
}

=== FILE: filters.dfy ===
/**
  The folder/label and attachment part of `extract_labels_and_filters`
  (`app/nlp_processor.py`). Folder words and attachment words are recognised
  as plain substrings of the (already lower-cased) command. The date
  qualifiers of the same function depend on the wall clock; they arrive here
  as an already computed list and are only placed in the output.
 */
module Filters {
  import opened Text

  /** The folder vocabulary, in the order the qualifiers are emitted. */
  const Folders: seq<string> := ["sent", "spam", "draft", "important", "starred", "unread"]

  /** Folders that become a location (`in:`) qualifier; the others become a state (`is:`) qualifier. */
  const LocationFolders: set<string> := {"sent", "draft", "spam"}

  const AttachmentQualifier := "has:attachment"

  function FolderQualifier(f: string): (q: string)
    ensures f in LocationFolders ==> q == "in:" + f
    ensures f !in LocationFolders ==> q == "is:" + f
  {
    (if f in LocationFolders then "in:" else "is:") + f
  }

  /** Different folder words give different qualifiers. */
  lemma FolderQualifierInjective(f: string, g: string)
    ensures FolderQualifier(f) == FolderQualifier(g) <==> f == g
  {
    assert f == FolderQualifier(f)[3..];
    assert g == FolderQualifier(g)[3..];
  }

  /** The qualifiers for those words of `fs` that occur in `text`, in the order of `fs`. */
  function LabelsOf(text: string, fs: seq<string>): (r: seq<string>)
    ensures |r| <= |fs|
    decreases |fs|
  {
    if |fs| == 0 then []
    else (if Contains(text, fs[0]) then [FolderQualifier(fs[0])] else []) + LabelsOf(text, fs[1..])
  }

  /** The `labels` list of `extract_labels_and_filters`. */
  function Labels(text: string): seq<string> {
    LabelsOf(text, Folders)
  }

  /** The attachment qualifier followed by the clock-derived date qualifiers (the `q` list). */
  function FilterQualifiers(text: string, dates: seq<string>): (r: seq<string>)
    ensures |r| == |dates| + 1 <==> Contains(text, "attachment") || Contains(text, "pdf")
    ensures |r| == |dates| || |r| == |dates| + 1
    ensures |r| == |dates| + 1 ==> r[0] == AttachmentQualifier
    ensures r[|r| - |dates|..] == dates
  {
    (if Contains(text, "attachment") || Contains(text, "pdf") then [AttachmentQualifier] else []) + dates
  }

  /**
    `extract_labels_and_filters`: all label qualifiers, then all filter
    qualifiers, space-separated. When every date qualifier is one word, the
    result has no whitespace at its ends.
   */
  function LabelsAndFilters(text: string, dates: seq<string>): (r: string)
    ensures (forall k :: 0 <= k < |dates| ==> IsWord(dates[k])) ==> NoEdgeSpace(r)
  {
    var parts := Labels(text) + FilterQualifiers(text, dates);
    if forall k :: 0 <= k < |dates| ==> IsWord(dates[k]) then
      FoldersAreWords();
      LabelsOfWords(text, Folders);
      FiltersAreWords(text, dates);
      WordsAppend(Labels(text), FilterQualifiers(text, dates));
      JoinNoEdge(parts);
      Join(parts)
    else
      Join(parts)
  }

  /** A word outside the list never has its qualifier emitted. */
  lemma {:induction false} LabelsOfAbsent(text: string, fs: seq<string>, f: string)
    requires f !in fs
    ensures FolderQualifier(f) !in LabelsOf(text, fs)
    decreases |fs|
  {
    if |fs| > 0 {
      FolderQualifierInjective(fs[0], f);
      LabelsOfAbsent(text, fs[1..], f);
    }
  }

  /** A qualifier is emitted for a listed word exactly when the word occurs in the text. */
  lemma {:induction false} LabelsOfMembership(text: string, fs: seq<string>, f: string)
    requires f in fs
    ensures FolderQualifier(f) in LabelsOf(text, fs) <==> Contains(text, f)
    decreases |fs|
  {
    var rest := LabelsOf(text, fs[1..]);
    FolderQualifierInjective(fs[0], f);
    if f in fs[1..] {
      LabelsOfMembership(text, fs[1..], f);
    } else {
      LabelsOfAbsent(text, fs[1..], f);
    }
  }

  /** Every emitted qualifier belongs to a listed word that occurs in the text. */
  lemma {:induction false} LabelsOfOnlyFrom(text: string, fs: seq<string>, q: string)
    requires q in LabelsOf(text, fs)
    ensures exists f :: f in fs && Contains(text, f) && q == FolderQualifier(f)
    decreases |fs|
  {
    if !(Contains(text, fs[0]) && q == FolderQualifier(fs[0])) {
      LabelsOfOnlyFrom(text, fs[1..], q);
      var f :| f in fs[1..] && Contains(text, f) && q == FolderQualifier(f);
      assert f in fs;
    }
  }

  /** Splitting the vocabulary splits the qualifier list: earlier words' qualifiers come first. */
  lemma {:induction false} LabelsOfAppend(text: string, fs: seq<string>, gs: seq<string>)
    ensures LabelsOf(text, fs + gs) == LabelsOf(text, fs) + LabelsOf(text, gs)
    decreases |fs|
  {
    if |fs| > 0 {
      assert (fs + gs)[1..] == fs[1..] + gs;
      LabelsOfAppend(text, fs[1..], gs);
    } else {
      assert fs + gs == gs;
    }
  }

  /**
    The emitted label qualifiers: each folder word in the text yields its
    qualifier (`in:` for sent/draft/spam, `is:` otherwise) and nothing else is
    emitted.
   */
  lemma LabelsExactlyPresent(text: string)
    ensures forall f :: f in Folders ==> (FolderQualifier(f) in Labels(text) <==> Contains(text, f))
    ensures forall q :: q in Labels(text) ==> exists f :: f in Folders && Contains(text, f) && q == FolderQualifier(f)
  {
    forall f | f in Folders ensures FolderQualifier(f) in Labels(text) <==> Contains(text, f) {
      LabelsOfMembership(text, Folders, f);
    }
    forall q | q in Labels(text) ensures exists f :: f in Folders && Contains(text, f) && q == FolderQualifier(f) {
      LabelsOfOnlyFrom(text, Folders, q);
    }
  }

  /** The qualifiers of the first `n` vocabulary words all precede those of the rest. */
  lemma LabelsInVocabularyOrder(text: string, n: nat)
    requires n <= |Folders|
    ensures Labels(text) == LabelsOf(text, Folders[..n]) + LabelsOf(text, Folders[n..])
  {
    assert Folders == Folders[..n] + Folders[n..];
    LabelsOfAppend(text, Folders[..n], Folders[n..]);
  }

  /** No qualifier is emitted twice. */
  lemma {:induction false} LabelsOfDistinct(text: string, fs: seq<string>)
    requires Distinct(fs)
    ensures Distinct(LabelsOf(text, fs))
    decreases |fs|
  {
    if |fs| > 0 {
      LabelsOfDistinct(text, fs[1..]);
      LabelsOfAbsent(text, fs[1..], fs[0]);
    }
  }

  lemma LabelsDistinct(text: string)
    ensures Distinct(Labels(text))
  {
    assert Distinct(Folders) by {
      forall i, j | 0 <= i < j < |Folders| ensures Folders[i] != Folders[j] {
        assert Folders[i][1] != Folders[j][1];
      }
    }
    LabelsOfDistinct(text, Folders);
  }

  /**
    The joined query lists the label qualifiers before the filter qualifiers:
    it is the joined labels, a space, and the joined filters (either part
    absent when it is empty).
   */
  lemma LabelsBeforeFilters(text: string, dates: seq<string>)
    ensures var l := Labels(text); var q := FilterQualifiers(text, dates);
      LabelsAndFilters(text, dates) ==
        if |l| == 0 then Join(q) else if |q| == 0 then Join(l) else Join(l) + " " + Join(q)
  {
    var l := Labels(text);
    var q := FilterQualifiers(text, dates);
    if |l| == 0 {
      assert l + q == q;
    } else if |q| == 0 {
      assert l + q == l;
    } else {
      JoinAppend(l, q);
    }
  }

  /** A qualifier is one space-free word. */
  predicate IsWord(q: string) {
    |q| > 0 && forall k :: 0 <= k < |q| ==> !IsSpace(q[k])
  }

  lemma {:induction false} LabelsOfWords(text: string, fs: seq<string>)
    requires forall k :: 0 <= k < |fs| ==> IsWord(fs[k])
    ensures forall k :: 0 <= k < |LabelsOf(text, fs)| ==> IsWord(LabelsOf(text, fs)[k])
    decreases |fs|
  {
    if |fs| > 0 {
      LabelsOfWords(text, fs[1..]);
      var q := FolderQualifier(fs[0]);
      assert forall k :: 3 <= k < |q| ==> q[k] == fs[0][k - 3];
    }
  }

  lemma FoldersAreWords()
    ensures forall k :: 0 <= k < |Folders| ==> IsWord(Folders[k])
  {
  }

  lemma FiltersAreWords(text: string, dates: seq<string>)
    requires forall k :: 0 <= k < |dates| ==> IsWord(dates[k])
    ensures forall k :: 0 <= k < |FilterQualifiers(text, dates)| ==> IsWord(FilterQualifiers(text, dates)[k])
  {
    var r := FilterQualifiers(text, dates);
    var n := |r| - |dates|;
    assert IsWord(AttachmentQualifier);
    forall k | 0 <= k < |r| ensures IsWord(r[k]) {
      if k < n {
        assert r[k] == AttachmentQualifier;
      } else {
        assert r[k] == r[n..][k - n] == dates[k - n];
      }
    }
  }

  lemma WordsAppend(xs: seq<string>, ys: seq<string>)
    requires forall k :: 0 <= k < |xs| ==> IsWord(xs[k])
    requires forall k :: 0 <= k < |ys| ==> IsWord(ys[k])
    ensures forall k :: 0 <= k < |xs + ys| ==> IsWord((xs + ys)[k])
  {
    forall k | 0 <= k < |xs + ys| ensures IsWord((xs + ys)[k]) {
      if k < |xs| {
        assert (xs + ys)[k] == xs[k];
      } else {
        assert (xs + ys)[k] == ys[k - |xs|];
      }
    }
  }
}

=== FILE: intents.dfy ===
/**
  Intent selection of `app/nlp_processor.py`: the token-pattern rule table and
  `classify_intent`. Tokenisation, part-of-speech tagging and the TF-IDF
  similarity are external: the matcher's reported labels and the similarity
  scores (one per labelled example) are inputs.
 */
module Intents {
  import opened Wrappers

  datatype Intent = ReadEmail | SearchEmail | SendEmail | Unknown

  /** The part-of-speech distinction the rules use. */
  datatype Pos = ProperNoun | OtherPos

  /** A token as the tagger delivers it: its lower-cased form and its part of speech. */
  datatype Token = Token(lower: string, pos: Pos)

  /**
    A token-pattern rule. `VerbThenNoun` is `[verb] [any]* [noun]`;
    `VerbThenFromProper` is `[verb] [any]* ["from"] [proper noun]+`.
   */
  datatype Rule =
    | VerbThenNoun(verbs: set<string>, nouns: set<string>)
    | VerbThenFromProper(verbs: set<string>)

  const ReadVerbs: set<string> := {"read", "get", "fetch", "show", "study", "tell"}
  const ReadNouns: set<string> := {"email", "emails", "messages", "mails"}
  const SearchVerbs: set<string> := {"search", "find", "look", "check"}
  const SendVerbs: set<string> := {"send", "write", "compose"}
  const SendNouns: set<string> := {"email", "emails", "mail"}

  /** The rules registered for each intent label. */
  function RulesFor(intent: Intent): seq<Rule> {
    match intent
    case ReadEmail => [VerbThenNoun(ReadVerbs, ReadNouns), VerbThenFromProper(ReadVerbs)]
    case SearchEmail => [VerbThenNoun(SearchVerbs, ReadNouns)]
    case SendEmail => [VerbThenNoun(SendVerbs, SendNouns)]
    case Unknown => []
  }

  /** `rule` matches some contiguous span of `tokens`. */
  predicate RuleMatches(tokens: seq<Token>, rule: Rule) {
    match rule
    case VerbThenNoun(verbs, nouns) =>
      exists a, b | 0 <= a < b < |tokens| :: tokens[a].lower in verbs && tokens[b].lower in nouns
    case VerbThenFromProper(verbs) =>
      exists a, f | 0 <= a < f && f + 1 < |tokens| ::
        tokens[a].lower in verbs && tokens[f].lower == "from" && tokens[f + 1].pos == ProperNoun
  }

  /** The labels with at least one matching rule: what the matcher can report. */
  function RuleHits(tokens: seq<Token>): (r: set<Intent>)
    ensures Unknown !in r
    ensures forall i :: i in r <==> exists k :: 0 <= k < |RulesFor(i)| && RuleMatches(tokens, RulesFor(i)[k])
  {
    set i | i in {ReadEmail, SearchEmail, SendEmail} && exists k | 0 <= k < |RulesFor(i)| :: RuleMatches(tokens, RulesFor(i)[k])
  }

  /** The labels of the example corpus, in the order the similarity scores come in. */
  const ExampleLabels: seq<Intent> :=
    [ReadEmail, ReadEmail, ReadEmail, ReadEmail, ReadEmail, ReadEmail,
     SearchEmail, SearchEmail, SearchEmail, SearchEmail, SearchEmail,
     SendEmail, SendEmail, SendEmail]

  const Threshold: real := 0.3

  /** `k` is where numpy's `argmax` stops: a maximal score, and the first one. */
  predicate IsFirstMax(xs: seq<real>, k: nat) {
    && k < |xs|
    && (forall j :: 0 <= j < |xs| ==> xs[j] <= xs[k])
    && (forall j :: 0 <= j < k ==> xs[j] < xs[k])
  }

  /** numpy's `argmax`: the first index of a maximal element. */
  function ArgMax(xs: seq<real>): (k: nat)
    requires |xs| > 0
    ensures IsFirstMax(xs, k)
    decreases |xs|
  {
    if |xs| == 1 then 0
    else
      var k := ArgMax(xs[..|xs| - 1]);
      if xs[|xs| - 1] > xs[k] then |xs| - 1 else k
  }

  /** The first index of a maximal element is unique. */
  lemma FirstMaxUnique(xs: seq<real>, k: nat, k': nat)
    requires IsFirstMax(xs, k) && IsFirstMax(xs, k')
    ensures k == k'
  {
    assert xs[k] == xs[k'];
  }

  /**
    `classify_intent`: the first label the matcher reports wins outright;
    otherwise the label of the best-scoring example, if that score is above
    the threshold, else Unknown.
   */
  function Classify(matches: seq<Intent>, scores: seq<real>): (r: Intent)
    requires |scores| == |ExampleLabels|
    ensures |matches| > 0 ==> r == matches[0]
    ensures |matches| == 0 ==>
      (r != Unknown <==> exists j :: 0 <= j < |scores| && scores[j] > Threshold)
    ensures |matches| == 0 && r != Unknown ==>
      exists k: nat :: IsFirstMax(scores, k) && r == ExampleLabels[k]
  {
    if |matches| > 0 then matches[0]
    else
      var k := ArgMax(scores);
      if scores[k] > Threshold then ExampleLabels[k] else Unknown
  }

  /** The matcher reports exactly labels whose rules match, and reports something when any does. */
  predicate MatcherReports(tokens: seq<Token>, matches: seq<Intent>) {
    && (forall k :: 0 <= k < |matches| ==> matches[k] in RuleHits(tokens))
    && (|matches| > 0 <==> RuleHits(tokens) != {})
  }

  /**
    Rule priority: when any rule matches, the classification is one of the
    matching labels whatever the similarity scores are; when none matches, it
    depends on the scores alone.
   */
  lemma RulesBeforeSimilarity(tokens: seq<Token>, matches: seq<Intent>, scores: seq<real>, scores': seq<real>)
    requires MatcherReports(tokens, matches)
    requires |scores| == |ExampleLabels| == |scores'|
    ensures RuleHits(tokens) != {} ==>
      Classify(matches, scores) in RuleHits(tokens) && Classify(matches, scores) == Classify(matches, scores')
    ensures RuleHits(tokens) == {} ==> Classify(matches, scores) == Classify([], scores)
  {
  }

  /** A send verb followed later by a send noun, with no read or search rule matching, classifies as SendEmail. */
  lemma SendVerbThenNoun(tokens: seq<Token>, matches: seq<Intent>, scores: seq<real>, a: nat, b: nat)
    requires MatcherReports(tokens, matches)
    requires |scores| == |ExampleLabels|
    requires a < b < |tokens| && tokens[a].lower in SendVerbs && tokens[b].lower in SendNouns
    requires ReadEmail !in RuleHits(tokens) && SearchEmail !in RuleHits(tokens)
    ensures Classify(matches, scores) == SendEmail
  {
    assert RuleMatches(tokens, RulesFor(SendEmail)[0]);
    assert SendEmail in RuleHits(tokens);
  }
}

=== FILE: text.dfy ===
/**
  Character classes and string helpers shared by the extractors: Python's
  whitespace set, ASCII lower-casing, `str.strip`, `" ".join`, the `in`
  substring test and two generic searches (leftmost / rightmost position
  satisfying a predicate) from which every regular-expression search of the
  model is assembled.
 */
module Text {
  import opened Wrappers

  /** The characters Python's `str.isspace` and the `\s` class of `re` accept. */
  predicate IsSpace(c: char) {
    || ('\t' <= c <= '\r')
    || ('\U{1C}' <= c <= ' ')
    || c == '\U{85}' || c == '\U{A0}' || c == '\U{1680}'
    || ('\U{2000}' <= c <= '\U{200A}')
    || c == '\U{2028}' || c == '\U{2029}' || c == '\U{202F}' || c == '\U{205F}'
    || c == '\U{3000}'
  }

  predicate NotSpace(c: char) {
    !IsSpace(c)
  }

  /** Any character the regular-expression dot accepts: everything but a newline. */
  predicate NotNewline(c: char) {
    c != '\n'
  }

  predicate IsDigit(c: char) {
    '0' <= c <= '9'
  }

  predicate IsAsciiLetter(c: char) {
    ('a' <= c <= 'z') || ('A' <= c <= 'Z')
  }

  /** The `\w` class, restricted to ASCII. */
  predicate IsWordChar(c: char) {
    IsAsciiLetter(c) || IsDigit(c) || c == '_'
  }

  function ToLower(c: char): (r: char)
    ensures !('A' <= c <= 'Z') ==> r == c
    ensures !('A' <= r <= 'Z')
    ensures IsSpace(r) <==> IsSpace(c)
  {
    if 'A' <= c <= 'Z' then (c as int + 32) as char else c
  }

  /**
    `str.lower`, for the ASCII letters: no upper-case letter is left, every
    other character is kept, and whitespace stays exactly where it was.
   */
  function Lower(s: string): (r: string)
    ensures |r| == |s|
    ensures forall i :: 0 <= i < |s| ==> r[i] == ToLower(s[i])
    ensures forall i :: 0 <= i < |r| ==> !('A' <= r[i] <= 'Z')
    ensures forall i :: 0 <= i < |s| && !('A' <= s[i] <= 'Z') ==> r[i] == s[i]
    ensures forall i :: 0 <= i < |s| ==> (IsSpace(r[i]) <==> IsSpace(s[i]))
    ensures NoEdgeSpace(s) ==> NoEdgeSpace(r)
  {
    seq(|s|, i requires 0 <= i < |s| => ToLower(s[i]))
  }

  /** Every character of `s[lo..hi]` satisfies `p`. */
  predicate AllIn(s: string, lo: int, hi: int, p: char -> bool)
    requires 0 <= lo <= hi <= |s|
  {
    forall k :: lo <= k < hi ==> p(s[k])
  }

  /**
    The end of the longest run of `p`-characters starting at `i`: what a
    greedy `[...]*` consumes from position `i`.
   */
  function RunEnd(s: string, i: nat, p: char -> bool): (j: nat)
    requires i <= |s|
    ensures i <= j <= |s|
    ensures forall k :: i <= k < j ==> p(s[k])
    ensures j < |s| ==> !p(s[j])
    decreases |s| - i
  {
    if i < |s| && p(s[i]) then RunEnd(s, i + 1, p) else i
  }

  /** The start of the longest run of `p`-characters ending at `j`. */
  function RunStart(s: string, j: nat, p: char -> bool): (i: nat)
    requires j <= |s|
    ensures i <= j
    ensures forall k :: i <= k < j ==> p(s[k])
    ensures 0 < i ==> !p(s[i - 1])
  {
    if 0 < j && p(s[j - 1]) then RunStart(s, j - 1, p) else j
  }

  /** The least position in `[lo, hi)` satisfying `p` (a leftmost search). */
  function FirstFrom(lo: nat, hi: nat, p: nat -> bool): (r: Option<nat>)
    requires lo <= hi
    ensures r.Some? ==> lo <= r.value < hi && p(r.value)
    ensures r.Some? ==> forall j :: lo <= j < r.value ==> !p(j)
    ensures r.None? ==> forall j :: lo <= j < hi ==> !p(j)
    decreases hi - lo
  {
    if lo == hi then None
    else if p(lo) then Some(lo)
    else FirstFrom(lo + 1, hi, p)
  }

  /** The greatest position in `[lo, hi)` satisfying `p` (a backtracking search). */
  function LastFrom(lo: nat, hi: nat, p: nat -> bool): (r: Option<nat>)
    requires lo <= hi
    ensures r.Some? ==> lo <= r.value < hi && p(r.value)
    ensures r.Some? ==> forall j :: r.value < j < hi ==> !p(j)
    ensures r.None? ==> forall j :: lo <= j < hi ==> !p(j)
    decreases hi - lo
  {
    if lo == hi then None
    else if p(hi - 1) then Some(hi - 1)
    else LastFrom(lo, hi - 1, p)
  }

  /** No element occurs twice. */
  predicate Distinct<T(==)>(xs: seq<T>) {
    forall i, j :: 0 <= i < j < |xs| ==> xs[i] != xs[j]
  }

  /** Neither the first nor the last character is whitespace. */
  predicate NoEdgeSpace(s: string) {
    |s| > 0 ==> !IsSpace(s[0]) && !IsSpace(s[|s| - 1])
  }

  /** `r` is `s` with `a` leading and some trailing characters removed, all of them whitespace. */
  predicate TrimAt(r: string, s: string, a: nat) {
    && a + |r| <= |s|
    && r == s[a..a + |r|]
    && AllIn(s, 0, a, IsSpace)
    && AllIn(s, a + |r|, |s|, IsSpace)
  }

  /** Python's `str.strip()` with no argument. */
  function Strip(s: string): (r: string)
    ensures NoEdgeSpace(r)
    ensures exists a :: TrimAt(r, s, a)
  {
    var a := RunEnd(s, 0, IsSpace);
    if a == |s| then
      assert TrimAt([], s, a);
      []
    else
      var b := RunStart(s, |s|, IsSpace);
      assert !IsSpace(s[a]);
      assert a < b;
      assert TrimAt(s[a..b], s, a);
      s[a..b]
  }

  /** Stripping is determined by the edge conditions: a string without edge whitespace is its own strip. */
  lemma StripNoEdge(s: string)
    requires NoEdgeSpace(s)
    ensures Strip(s) == s
  {
    var r := Strip(s);
    var a: nat :| TrimAt(r, s, a);
    assert AllIn(s, 0, a, IsSpace) && AllIn(s, a + |r|, |s|, IsSpace);
    if |s| > 0 {
      assert !IsSpace(s[0]) && !IsSpace(s[|s| - 1]);
      assert a == 0 && a + |r| == |s|;
    }
  }

  lemma StripIdempotent(s: string)
    ensures Strip(Strip(s)) == Strip(s)
  {
    StripNoEdge(Strip(s));
  }

  /** A property of every character of `s` holds of every character of its strip. */
  lemma StripChars(s: string, p: char -> bool)
    requires AllIn(s, 0, |s|, p)
    ensures AllIn(Strip(s), 0, |Strip(s)|, p)
  {
    var r := Strip(s);
    var a: nat :| TrimAt(r, s, a);
    assert forall k :: 0 <= k < |r| ==> r[k] == s[a + k];
  }

  /** The stripped string is empty exactly when `s` is all whitespace. */
  lemma StripEmpty(s: string)
    ensures Strip(s) == [] <==> AllIn(s, 0, |s|, IsSpace)
  {
    var r := Strip(s);
    var a: nat :| TrimAt(r, s, a);
    assert AllIn(s, 0, a, IsSpace) && AllIn(s, a + |r|, |s|, IsSpace);
    if r != [] {
      assert s[a] == r[0];
    }
  }

  /** Python's `" ".join(xs)`. */
  function Join(xs: seq<string>): string
    decreases |xs|
  {
    if |xs| == 0 then ""
    else if |xs| == 1 then xs[0]
    else xs[0] + " " + Join(xs[1..])
  }

  /** Joining a concatenation puts one separator between the two joined halves. */
  lemma {:induction false} JoinAppend(xs: seq<string>, ys: seq<string>)
    requires |xs| > 0 && |ys| > 0
    ensures Join(xs + ys) == Join(xs) + " " + Join(ys)
    decreases |xs|
  {
    if |xs| == 1 {
      assert (xs + ys)[1..] == ys;
    } else {
      assert (xs + ys)[1..] == xs[1..] + ys;
      JoinAppend(xs[1..], ys);
    }
  }

  /** The joined string starts with the first part. */
  lemma JoinFirst(xs: seq<string>)
    requires |xs| > 0
    ensures |xs[0]| <= |Join(xs)| && Join(xs)[..|xs[0]|] == xs[0]
  {
    if |xs| > 1 {
      assert Join(xs) == xs[0] + (" " + Join(xs[1..]));
    }
  }

  /** The joined string ends with the last part. */
  lemma {:induction false} JoinLast(xs: seq<string>)
    requires |xs| > 0
    ensures |xs[|xs| - 1]| <= |Join(xs)| && Join(xs)[|Join(xs)| - |xs[|xs| - 1]|..] == xs[|xs| - 1]
    decreases |xs|
  {
    if |xs| > 1 {
      JoinLast(xs[1..]);
      var t := Join(xs[1..]);
      assert Join(xs) == (xs[0] + " ") + t;
      assert xs[1..][|xs[1..]| - 1] == xs[|xs| - 1];
    }
  }

  /** Joining non-empty parts that have no edge whitespace gives a string without edge whitespace. */
  lemma {:induction false} JoinNoEdge(xs: seq<string>)
    requires forall i :: 0 <= i < |xs| ==> |xs[i]| > 0 && NoEdgeSpace(xs[i])
    ensures NoEdgeSpace(Join(xs))
    ensures |xs| > 0 ==> |Join(xs)| > 0
    decreases |xs|
  {
    if |xs| > 1 {
      JoinNoEdge(xs[1..]);
      var t := Join(xs[1..]);
      assert (xs[0] + " " + t)[0] == xs[0][0];
      assert (xs[0] + " " + t)[|xs[0] + " " + t| - 1] == t[|t| - 1];
    }
  }

  /** `w` occurs in `s` at position `i`. */
  predicate OccursAt(s: string, w: string, i: nat) {
    i + |w| <= |s| && s[i..i + |w|] == w
  }

  /** Python's `w in s` on strings. */
  predicate Contains(s: string, w: string) {
    exists i | 0 <= i <= |s| :: OccursAt(s, w, i)
  }

  /** LATIN SMALL LETTER LONG S, which `str.lower` keeps. */
  const LongS: char := '\U{017F}'

  /** LATIN SMALL LETTER DOTLESS I, which `str.lower` keeps. */
  const DotlessI: char := '\U{0131}'

  /**
    Text character `c` matches the lower-case pattern letter `k` under
    Python's case-insensitive Unicode matching: after lower-casing, and also
    through the two extra equivalences of the `re` module, long s with "s"
    and dotless i with "i".
   */
  predicate MatchesIgnoringCase(c: char, k: char) {
    ToLower(c) == k || (c == LongS && k == 's') || (c == DotlessI && k == 'i')
  }

  /** `s` at position `i` spells the lower-case keyword `kw`, ignoring case as `re.IGNORECASE` does. */
  predicate KeywordAt(s: string, i: nat, kw: string) {
    i + |kw| <= |s| && forall k :: 0 <= k < |kw| ==> MatchesIgnoringCase(s[i + k], kw[k])
  }

  /** The value of a run of decimal digits, as Python's `int` reads it. */
  function DigitsValue(s: string): nat
    requires forall k :: 0 <= k < |s| ==> IsDigit(s[k])
  {
    if |s| == 0 then 0
    else
      assert IsDigit(s[|s| - 1]);
      10 * DigitsValue(s[..|s| - 1]) + (s[|s| - 1] as int - '0' as int)
  }
}

=== FILE: wrappers.dfy ===
/** Optional values, the model's stand-in for Python's `None`. */
module Wrappers {

  datatype Option<+T> = None | Some(value: T) {

    /** Returns the value held by Some, or `default` for None. */
    function GetOr(default: T): T {
      match this
      case Some(v) => v
      case None => default
    }
  }
}
